=== FILE: README.md ===
# Mars Rover Rescue — a Dafny model of the mission and run-data engine

Mars Rover Rescue is a classroom companion game. Students play three
missions. After each one they program a real Sphero robot and then type the
robot run's measurements into the game. The game then:

- checks the run data;
- stores the run in a per-mission run history;
- scores it with a fixed list of feedback messages;
- awards skill stars, each capped at five;
- unlocks the next mission.

A smaller terminal edition plays the same story with numbered choices.

This project models both editions as immutable data and pure transition
functions and proves the properties below.

| module | file | models |
|---|---|---|
| `Wrappers` | `wrappers.dfy` | `Option` and `Result` |
| `Players` | `players.dfy` | the player record, the clamped star bump, the rank tiers |
| `RunData` | `run_data.dfy` | the three data-entry forms (raw fields), the runs built from them, validation with defaults |
| `History` | `history.dfy` | the three append-only run lists, clear, load and save through storage that may be empty, corrupt or failing |
| `Scoring` | `scoring.dfy` | the feedback messages, as ordered tags, and the stars each mission's data earns |
| `Aggregates` | `aggregates.dfy` | the comparison boxes under the history tables: first, latest, minimum, mean, counts |
| `Game` | `game.dfy` | the web session: unlock gating, each mission's step order, challenge grading, the submit/archive/score/complete pipeline, play-again, the run-history screen reached from Mission 1's form and its "clear all history" button |
| `Rpg` | `rpg.dfy` | the terminal edition: choice parsing, every scene's skill and power transitions, the finales, the mission menu |

How the model represents the source:

- **Form fields.** A numeric form field is `Option<real>`, where `None` is the empty string. A drop-down is `Option<Choice>`.
- **Parsing.** `parseInt` of a numeric field is truncation toward zero (`RunData.Trunc`). `parseFloat(x) || 60` and `parseInt(x) || 0` are written out as explicit defaults.
- **Feedback.** Feedback text is a sequence of tags. Each tag belongs to a numbered group (`Scoring.Slot`), and "in fixed order" means the groups strictly increase along the list.
- **Storage.** Storage is the value `Stored`: nothing saved, unparseable, or a saved history. Whether a write succeeds is a parameter.
- **The web session.** The session is a value. Each user action is an `Event` delivered to the step on screen by `Game.Signal`. An action the current step does not expect leaves the session unchanged. Mission select answers "Start Mission", and the game-complete screen answers "Play Again".

Mission 1 scoring raises the skill only for a first-try run (web/game.js:920-922), so a clean first-try Mission 1 run earns exactly one star. See `Game.ScenarioFirstTryHexagon`.

## Model

| member | source | states |
|---|---|---|
| Players.NewPlayer | web/game.js:9-15 | a new player has the given name, one star, full power, communications offline and no missions |
| Players.Bump | web/game.js:1601-1603 | a star bump never exceeds five, adds exactly one below five, and keeps a skill in 1..5 within 1..5 without lowering it |
| Players.BumpTimesIsClampedSum | web/game.js:1074-1086 | k successive clamped bumps equal the clamped sum min(5, s + k), which is how two bonuses in one submission combine |
| Players.BumpTimesStaysInRange | web/game.js:995-1018 | any number of bumps keeps the skill within 1..5 and never lowers it |
| Players.RankOf | web/game.js:1756-1766 | Master exactly at five stars or more, Senior exactly at three or four, Junior below three |
| Players.RankMonotone | mars_rover_rpg.py:855-863 | more stars never give a lower rank |
| RunData.MissionOf | web/game.js:78-80 | a run's history list is chosen by its mission: survey 1, retrieval 2, supply run 3 |
| RunData.Trunc | web/game.js:869-873 | integer parsing truncates toward zero: the result is within one of the value, below it for positives and above it for negatives |
| RunData.IntOrZero | web/game.js:969-970 | an empty count field becomes 0; otherwise the truncated value is stored |
| RunData.TargetAngleOrDefault | web/game.js:867 | the stored planned angle is never 0: an empty or zero entry becomes 60, any other entry is kept |
| RunData.ValidateSurvey | web/game.js:858-877 | Mission 1 data is accepted exactly when time, used angle, sides, distance, returned and attempts are all filled; the stored run carries those values, the defaulted planned angle and the unit "cm" |
| RunData.ValidateRetrieval | web/game.js:959-976 | Mission 2 data is accepted exactly when time, distance, reached and attempts are filled; obstacles and collisions default to 0 and the unit is "cm" |
| RunData.ValidateSupply | web/game.js:1047-1065 | Mission 3 data is accepted exactly when time, distance, reached, attempts, loops and conditionals are filled; segments and bugs default to 0 and the unit is "cm" |
| RunData.SurveyRoundTrip | web/game.js:865-877 | re-entering a stored Mission 1 run's own values gives back the same run |
| RunData.RetrievalRoundTrip | web/game.js:959-976 | re-entering a stored Mission 2 run's own values gives back the same run |
| RunData.SupplyRoundTrip | web/game.js:1047-1065 | re-entering a stored Mission 3 run's own values gives back the same run |
| History.Empty | web/game.js:63 | the empty history has three empty lists |
| History.WithRuns | web/game.js:79-82 | replacing one mission's list leaves the other two lists as they were |
| History.AddToRunHistory | web/game.js:78-84 | appending adds exactly one record at the end of the run's own mission list: the prefix is kept, the run number is the old length plus one, the engineer is the player's name; the other lists are unchanged |
| History.ClearRunHistory | web/game.js:86-92 | a confirmed clear empties all three lists; a declined one changes nothing |
| History.LoadRunHistory | web/game.js:60-67 | loading returns the saved history, or three empty lists when nothing is saved or the saved data cannot be parsed |
| History.SaveRunHistory | web/game.js:69-75 | after a successful write, loading gives back the history written; a failed write leaves storage as it was |
| History.ClearSaveLoadIsEmpty | web/game.js:86-92 | a confirmed clear that is written out loads back as three empty lists |
| History.AddKeepsWellFormed | web/game.js:78-84 | appending keeps every list numbered 1..N and every record in its own mission's list |
| History.AddAllLeavesOthers | web/game.js:78-84 | appending any number of runs of other missions never touches a mission's list |
| History.AddAllAppendsInOrder | web/game.js:78-84 | appending a series of runs of one mission puts them at the end of its list, in order, numbered on from the old length |
| History.RunNumbersFromEmpty | web/game.js:78-84 | from an empty history, the run numbers of one mission are exactly 1..N in submission order |
| Scoring.AngleTier | web/game.js:888-895 | the angle message is "excellent" within 5 degrees of 60, "off" above 5 up to 15, "noted" beyond 15 |
| Scoring.SidesTier | web/game.js:904-908 | the sides message is "perfect" exactly at 6 sides |
| Scoring.ReturnTier | web/game.js:911-917 | the return message follows the yes / close / otherwise answer |
| Scoring.EffortTier | web/game.js:920-927 | the attempts message is "first try" at exactly 1, "few" up to 3, "many" otherwise |
| Scoring.DistanceTier | web/game.js:986-993 | the distance message is "perfect" within 180..240 cm, "good" elsewhere within 150..300 cm, "noted" otherwise |
| Scoring.CollisionTier | web/game.js:995-1003 | zero collisions only for a filled field that reads 0; "minimal" for 1..2; an empty field falls to "noted" |
| Scoring.TargetTier | web/game.js:1005-1012 | the Mission 2 arrival message follows the reached answer |
| Scoring.CraterTier | web/game.js:1082-1090 | the Mission 3 arrival message follows the reached answer |
| Scoring.ScoreSurvey | web/game.js:886-930 | Mission 1 messages come in fixed order and end with "run #n" for the new history length; the one star on offer is given exactly when the first-try message is shown |
| Scoring.ScoreRetrieval | web/game.js:984-1018 | Mission 2 messages come in fixed order; one star comes with the zero-collisions message and one with the conditionals message, and no others |
| Scoring.ScoreSupply | web/game.js:1072-1100 | Mission 3 messages come in fixed order; one star comes with the both-techniques message and one with the crater-reached message, and no others |
| Scoring.TechniqueTier | web/game.js:1074-1080 | both techniques earn the mastery message; exactly one of them earns the one-technique message |
| Scoring.CreditTier | web/game.js:1092-1100 | the bugs-fixed and complex-program messages appear exactly when bugs > 0 and segments >= 8 |
| Scoring.SurveyAngleFeedback | web/game.js:888-901 | the Mission 1 list has each angle tier exactly when its deviation band holds, and an adjustment line exactly when a planned angle was typed and differs from the used one |
| Scoring.SurveyCheckFeedback | web/game.js:904-917 | the Mission 1 list has the sides and return messages exactly under their conditions |
| Scoring.SurveyEffortFeedback | web/game.js:920-927 | the Mission 1 list has each attempts message exactly under its condition |
| Scoring.RetrievalTierFeedback | web/game.js:986-1003 | the Mission 2 list has each distance and collision message exactly under its condition, reading the collisions field as typed |
| Scoring.RetrievalCollisionFeedback | web/game.js:994-1003 | a Mission 2 list holds exactly one collision message, the one the typed collisions field selects (an empty field selects the "recorded" message) |
| Scoring.RetrievalOutcomeFeedback | web/game.js:1005-1018 | the Mission 2 list has each arrival message, and the conditionals message, exactly under their conditions |
| Scoring.SupplyTechniqueFeedback | web/game.js:1074-1080 | the Mission 3 list has the both-techniques message exactly when loops and conditionals are both yes, and the one-technique message exactly when just one is |
| Scoring.SupplyCraterFeedback | web/game.js:1082-1090 | the Mission 3 list has each crater message exactly under its answer |
| Scoring.SupplyCreditFeedback | web/game.js:1092-1100 | the Mission 3 list has the bugs and complexity messages exactly under their conditions |
| Aggregates.CountWhere | web/game.js:303 | a count-where never exceeds the list length |
| Aggregates.CountWhereIsMatchingPositions | web/game.js:303 | the count-where equals the number of positions whose run satisfies the test |
| Aggregates.SumByBounds | web/game.js:208 | a sum of per-run values each within lo..hi lies within n·lo..n·hi |
| Aggregates.BestTime | web/game.js:207 | the best time is no more than any run's time and is some run's time |
| Aggregates.FewestCollisions | web/game.js:302 | the fewest collisions is no more than any run's count and is some run's count |
| Aggregates.MeanAttempts | web/game.js:208 | the mean times the number of runs is the total of attempts |
| Aggregates.MeanAttemptsBounds | web/game.js:208 | when every run's attempts lie within lo..hi, so does the mean |
| Aggregates.CompareSurveys | web/game.js:199-208 | the Mission 1 comparison appears exactly when there are two or more runs, with the first and latest run's times, the minimum time and the mean attempts |
| Aggregates.CompareRetrievals | web/game.js:295-303 | the Mission 2 comparison appears exactly when there are two or more runs, with first and latest collisions, the minimum, and the number of runs that reached the target |
| Aggregates.CompareSupplyRuns | web/game.js:368-375 | the Mission 3 comparison appears exactly when there are two or more runs, counting runs that reached or nearly reached the crater and runs that used both techniques |
| Aggregates.AngleAnalysis | web/game.js:235-237 | the angle analysis appears for any non-empty list and counts runs within 5 degrees of 60 |
| Game.MissionSteps | web/game.js:1135-1144 | every mission starts with narrative and ends with its single data-entry step |
| Game.NewSession | web/game.js:8-25 | a new session starts at mission select with a fresh player, no last runs, whatever history storage yields, and satisfies the session invariant |
| Game.StartMission | web/game.js:550-563 | a locked mission does nothing; an unlocked one starts at its first step and changes nothing else |
| Game.UnlockThresholds | web/game.js:551-552 | from mission select, Mission 2 starts exactly when one mission is done and Mission 3 exactly when two are |
| Game.HandleChallengeAnswer | web/game.js:1584-1611 | the reported result is selected == correct, and only a right answer adds a clamped star; nothing else about the player changes |
| Game.CompleteMission1WithData | web/game.js:1116-1120 | Mission 1 completion raises the count to at least 1, never lowers it, and sets power to 85; nothing else changes |
| Game.CompleteMission2WithData | web/game.js:1122-1126 | Mission 2 completion raises the count to at least 2, never lowers it, and turns communications on |
| Game.CompleteMission3WithData | web/game.js:1128-1131 | Mission 3 completion sets the count to exactly 3 |
| Game.Archive | web/game.js:78-84 | an accepted run is appended under the player's name; a successful write stores exactly the new history, and a failed one leaves storage as it was |
| Game.SubmitSurvey | web/game.js:858-944 | incomplete Mission 1 data is refused with nothing changed; complete data is appended, becomes the last Mission 1 run, gets the next run number, is reported as "run #n", and adds a star exactly on a first try |
| Game.SubmitRetrieval | web/game.js:959-1031 | incomplete Mission 2 data is refused with nothing changed; complete data is appended and earns a clamped star for zero collisions (as typed) and one for conditionals |
| Game.SubmitSupply | web/game.js:1047-1113 | incomplete Mission 3 data is refused with nothing changed; complete data is appended and earns a clamped star for using both techniques and one for reaching the crater |
| Game.PlayAgain | web/game.js:1788-1802 | play-again gives a fresh player with the same name and no last runs, returns to mission select, and keeps the history |
| Game.ClearHistory | web/game.js:86-92 | only a confirmed clear empties the lists, and a successful write makes storage load back empty; the player and screen are untouched |
| Game.Signal | web/game.js:1135-1144 | every action keeps the session invariant and never skips a step; skill and progress fall only through "Play Again" on the game-complete screen, which gives a fresh player and keeps the history; a mission starts only from mission select, at its first step, once unlocked; it is left only from its data-entry step, either completed or (Mission 1 only) for the run-history table with nothing recorded; an accepted submission changes the history by exactly one append under the player's name, and otherwise only a confirmed clear on the run-history screen touches it |
| Game.OnStep | web/game.js:1558-1649 | on a mission step, a continue, a choice or an answer moves at most one step on within the mission, never lowers skill or progress, and only the data-entry step can leave the mission |
| Game.HistoryDetour | web/game.js:94-139 | from Mission 1's form, "View Run History" then "Back to Missions" lands on mission select with the player, history and mission data untouched |
| Game.EnterKeepsValid | web/game.js:941-944 | submitting at the data-entry step keeps the invariant and either leaves the screen or moves to the mission's completion screen |
| Game.AddGrows | web/game.js:78-84 | an append keeps every existing record in place |
| Game.Play | web/game.js:1318-1327 | over any sequence of actions the invariant holds; unless "Play Again" is among them skill and progress never fall; unless "Clear All History" is among them every mission list only grows; and without a "Start Mission" a session that is not inside a mission never enters one |
| Game.PlayAppend | web/game.js:1318-1327 | playing two action sequences one after the other is playing their concatenation |
| Game.Mission1OpeningStars | web/game.js:1135-1141 | starting Mission 1 and picking the starred option earns one star and reaches the first check |
| Game.Mission1ChecksStars | web/game.js:1584-1611 | answering both Mission 1 checks right earns two more stars and reaches the data-entry step |
| Game.SubmitCompletesMission1 | web/game.js:1116-1120 | a clean first-try hexagon survey at the data-entry step completes Mission 1 with power 85 and one more star, and appends one Mission 1 record |
| Game.ScenarioMission1ThenMission2 | web/game.js:550-563 | from a new session, playing Mission 1 through and then pressing "Start Mission" for Mission 2 reaches Mission 2's first step with one mission done, full skill, power 85, one more Mission 1 record and Mission 2's list untouched |
| Game.AnswerLocked | web/game.js:1584-1589 | once a challenge is answered, further answers are ignored |
| Game.StaleSignalIgnored | web/game.js:1446-1454 | an action a narrative step does not expect changes nothing |
| Game.ScenarioFirstTryHexagon | web/game.js:886-927 | a clean first-try hexagon run shows the excellent-angle, perfect-sides, returned and first-try messages and earns exactly one star |
| Game.ScenarioMissingDistance | web/game.js:858-862 | Mission 1 data without a distance is refused and the history keeps its length |
| Game.ScenarioCollisionsImprove | web/game.js:299-303 | after runs with 3 and then 0 collisions, the comparison shows first 3, latest 0 and fewest 0 |
| Game.ScenarioMastery | web/game.js:1074-1086 | a Mission 3 run with both techniques that reached the crater earns exactly two stars, and the mastery message comes before the crater message |
| Rpg.TrimStart | mars_rover_rpg.py:45 | strip removes exactly the leading whitespace |
| Rpg.TrimEnd | mars_rover_rpg.py:45 | strip removes exactly the trailing whitespace |
| Rpg.Show | mars_rover_rpg.py:42 | an option number is printed as a digit string that reads back as the same number |
| Rpg.ParseChoice | mars_rover_rpg.py:45-49 | a typed line is accepted exactly when, stripped, it is all digits and names a number from 1 to the option count, and the accepted value is that number |
| Rpg.GetChoice | mars_rover_rpg.py:37-52 | the input loop returns the first acceptable line's number and rejects every earlier line |
| Rpg.StripPadded | mars_rover_rpg.py:45 | whitespace padding on both sides is removed and nothing else |
| Rpg.ShowIsAccepted | mars_rover_rpg.py:45-49 | typing any option's number, padded with whitespace, selects that option |
| Rpg.LeadingZeroAccepted | mars_rover_rpg.py:46-47 | a leading zero does not change the option chosen |
| Rpg.OutOfRangeRejected | mars_rover_rpg.py:48 | zero, a number above the option count, and an empty line are all rejected |
| Rpg.BumpIf | mars_rover_rpg.py:335 | a scene star is the clamped bump when earned, and nothing else about the player changes |
| Rpg.Mission1Scene1 | mars_rover_rpg.py:297-319 | asking how the rover moves or reviewing the requirements earns a star; the other two choices change nothing |
| Rpg.Mission1Scene2 | mars_rover_rpg.py:323-338 | the sequence check earns a clamped star exactly for the right answer, and nothing else about the player changes |
| Rpg.Mission1Scene3 | mars_rover_rpg.py:340-366 | the loops check earns a clamped star exactly for the right answer, which is also the scene's success; nothing else changes |
| Rpg.Advance | mars_rover_rpg.py:383 | as written, a finale adds one to the count; corrected, it raises the count to the mission's number and never lowers it |
| Rpg.Mission1Finale | mars_rover_rpg.py:378-393 | the Mission 1 finale records the mission and sets power to 85 exactly when the loops check succeeded with at least two stars, otherwise 70 |
| Rpg.RunMission1 | mars_rover_rpg.py:404-410 | Mission 1 keeps the skill in 1..5 without lowering it and records the mission |
| Rpg.FullPowerIffLoopsRight | mars_rover_rpg.py:340-393 | after Mission 1 the rover has 85 power exactly when the loops check was answered right, and 70 otherwise |
| Rpg.Mission2Scene1 | mars_rover_rpg.py:458-474 | only the zigzag route costs power, exactly 10 |
| Rpg.Mission2Check | mars_rover_rpg.py:483-512 | the conditionals and measurement checks each succeed exactly on the right answer and then earn a clamped star; nothing else changes |
| Rpg.Mission2Scene4 | mars_rover_rpg.py:536-576 | the terrain costs the rock-field and slope prices, between 5 and 25 power in all; only the slow climb earns a star; success means more than 20 power left |
| Rpg.TerrainReserve | mars_rover_rpg.py:536-576 | with 46 power or more the terrain always succeeds, and with 25 or less it never does |
| Rpg.Mission2Finale | mars_rover_rpg.py:578-607 | whatever the outcome, Mission 2 is recorded and communications come online |
| Rpg.RunMission2 | mars_rover_rpg.py:619-626 | Mission 2 succeeds exactly when both checks are right and the terrain leaves more than 20 power; skill stays in 1..5 |
| Rpg.Mission3Scene1 | mars_rover_rpg.py:653-675 | the debugging check earns a clamped star exactly for the right answer, and nothing else about the player changes |
| Rpg.Mission3Scene2 | mars_rover_rpg.py:703-718 | the plan succeeds exactly for choices 1 and 2, only choice 2 earns a star, and nothing but the skill changes |
| Rpg.Mission3Scene3 | mars_rover_rpg.py:745-801 | a full charge sets power to 100, a partial charge adds 30 capped at 100, pressing on keeps it; the scene always succeeds |
| Rpg.Mission3Finale | mars_rover_rpg.py:843-863 | the finale records the mission and the rank follows the final skill |
| Rpg.RunMission3 | mars_rover_rpg.py:890-896 | Mission 3 keeps the skill in 1..5 without lowering it and ends with the rank of the final skill |
| Rpg.MasterFromTwoStars | mars_rover_rpg.py:653-863 | answering all three Mission 3 questions right from two or more stars ends as a Master |
| Rpg.MenuOptions | mars_rover_rpg.py:1026-1046 | the menu has 3, 4, 5 or 5 lines for 0, 1, 2 or more completed missions; it ends with facts and exit, and it can only begin the next mission |
| Rpg.MenuAction | mars_rover_rpg.py:1050-1092 | the last number quits and the one before shows a fact; every other number plays a mission already done or the next one, and the next one only as choice 1 |
| Rpg.MenuDispatchAgrees | mars_rover_rpg.py:1050-1092 | every number does what the menu line it names announces |
| Rpg.MenuStep | mars_rover_rpg.py:1048-1092 | the menu loop ends with "game complete" exactly for beginning Mission 3 from the two-mission menu, and exits exactly on the last line |
| Rpg.AsWrittenReplaySkipsMission2 | mars_rover_rpg.py:383 | as written, replaying Mission 1 from the one-mission menu sets the count to 2, and Mission 3 is then offered |
| Rpg.AsWrittenReplayPassesThree | mars_rover_rpg.py:843 | as written, a replay after all three missions pushes the count to 4 |
| Rpg.CorrectedProgress | mars_rover_rpg.py:1013-1092 | with corrected counting the count stays within 0..3, never falls, and rises by one only when the next mission is begun |
| Rpg.CreatePlayer | mars_rover_rpg.py:980-1011 | every blank or all-whitespace line is passed over with a new prompt; the first other line, stripped, names a new engineer with one star, full power, no communications and no missions |

## Left out

- **Presentation.** The DOM and HTML building, the typewriter effect, `sleep`, `confirm()` and the random Mars facts are left out. None of them changes state. The confirmation answer and storage-write success are parameters instead.
- **Message text.** The exact message strings and `toFixed` formatting are left out. Feedback is a list of tags. `RunRecorded(n)` and `AngleAdjusted(planned, used)` carry the numbers the text would show.
- **Timestamps and JSON.** Run timestamps (`new Date()`) and the JSON encoding of storage are left out. Storage is the `Stored` value.
- **Well-formed JSON of the wrong shape.** Saved text that parses but is not a three-list history (`null`, or an object without `mission2`) is neither `Unparseable` nor a saved history here. The source loads it without error (web/game.js:63) and then fails on the next `addToRunHistory` (web/game.js:80).
- **The completion delay.** The 2.5-second delay between an accepted submission and the completion screen is merged into one step. A second submission inside that window is not modelled.
- **Unused summary fields.** The summary screens read fields that are never stored (`data.angle`). These are display-only and not modelled.
- **Number parsing.** `parseFloat` / `parseInt` of text that is not a plain decimal (exponents, trailing junk, NaN) is not modelled. The browser's number inputs only deliver a number or the empty string.
- **Double rounding.** A typed decimal is read as an exact `real`, while `parseFloat` rounds it to a double. A decimal with more significant digits than a double holds can therefore land in a different tier. For example, distance "240.00000000000000001" is 240 and "perfect" in the source, but `DistanceGood` here; a planned angle "60.00000000000000001" against 60 used gives an `AngleAdjusted` line here and none in the source.
- **Whitespace and digits in the terminal edition.** Only ASCII whitespace and ASCII digits are modelled for input stripping and `isdigit`. The Unicode digits and spaces Python also accepts are left out.
- **End of input.** When input ends, the terminal loops keep asking forever. `Rpg.GetChoice` and `Rpg.CreatePlayer` instead return `None` after the last line.
- **Route label.** The terminal edition's `route_difficulty` is set but never read, so it is not modelled.
- **Challenge and scene text.** The terminal edition's challenge and scene narration is reduced to which number is right: the second option of every check.
- **Where the buttons sit.** The page markup that wires the "Start Mission" and "Play Again" buttons is not part of this model. Starting is taken to happen from mission select (locked missions do nothing, web/game.js:550-552), and "Play Again" is honoured only on the game-complete screen, the one screen that offers it.
- **Classroom launcher.** `classroom_launcher.py` is menu and I/O plumbing around the terminal game and is not part of this model.
- Aggregates.MeanAttempts: gives the exact mean over `real`, not the one-decimal rounded display.
- Aggregates.CompareSupplyRuns: the total-bugs figure is a plain sum; no bound on it is stated.

## Findings

| source | as written | input that shows it | evidently intended | confidence | as-written member | corrected member |
|---|---|---|---|---|---|---|
| mars_rover_rpg.py:383 (also 597, 605, 843) | every finale adds one to `missions_completed`, also on a replay | one mission done, choose "Replay Mission 1": the count becomes 2 and the menu offers Mission 3, though Mission 2 was never played; a replay after three missions gives 4 | count a mission as done by raising the count to its number, as the web edition does with `Math.max` (web/game.js:1117, 1123) | high; not executed | Rpg.AsWrittenReplaySkipsMission2 | Rpg.CorrectedProgress |

=== FILE: aggregates.dfy ===
/**
 * The figures the run-history screen derives from one mission's list:
 * first and latest run, best (minimum) value, sums and means, and counts
 * of runs meeting a condition. Comparisons appear only from two runs on.
 */
module Aggregates {
  import opened Wrappers
  import opened RunData
  import opened History

  /** How many elements of `xs` satisfy `p` (the length of a `filter`). */
  function CountWhere<T>(xs: seq<T>, p: T -> bool): (n: nat)
    ensures n <= |xs|
    decreases |xs|
  {
    if |xs| == 0 then 0
    else CountWhere(xs[..|xs| - 1], p) + (if p(xs[|xs| - 1]) then 1 else 0)
  }

  /** The positions of `xs` whose element satisfies `p`. */
  function Matching<T>(xs: seq<T>, p: T -> bool, n: nat): set<nat>
    requires n <= |xs|
  {
    set i: nat | i < n && p(xs[i])
  }

  /** The count is the number of matching positions: it agrees with a plain filter. */
  lemma {:induction false} CountWhereIsMatchingPositions<T>(xs: seq<T>, p: T -> bool)
    ensures CountWhere(xs, p) == |Matching(xs, p, |xs|)|
    decreases |xs|
  {
    if |xs| > 0 {
      var n := |xs| - 1;
      var init := xs[..n];
      CountWhereIsMatchingPositions(init, p);
      assert Matching(init, p, n) == Matching(xs, p, n) by {
        forall i: nat | i < n ensures init[i] == xs[i] { }
      }
      if p(xs[n]) {
        assert Matching(xs, p, n + 1) == Matching(xs, p, n) + {n};
        assert n !in Matching(xs, p, n);
      } else {
        assert Matching(xs, p, n + 1) == Matching(xs, p, n);
      }
    }
  }

  /** The total of `f` over `xs` (a `reduce` with `+`). */
  function SumBy<T>(xs: seq<T>, f: T -> int): int
    decreases |xs|
  {
    if |xs| == 0 then 0 else SumBy(xs[..|xs| - 1], f) + f(xs[|xs| - 1])
  }

  /** A sum of values all within [lo, hi] lies within [n * lo, n * hi]. */
  lemma {:induction false} SumByBounds<T>(xs: seq<T>, f: T -> int, lo: int, hi: int)
    requires forall i :: 0 <= i < |xs| ==> lo <= f(xs[i]) <= hi
    ensures |xs| * lo <= SumBy(xs, f) <= |xs| * hi
    decreases |xs|
  {
    if |xs| > 0 {
      SumByBounds(xs[..|xs| - 1], f, lo, hi);
    }
  }

  /** The fastest run time in a non-empty list (`Math.min` over the times). */
  function BestTime(runs: seq<RunRecord>): (t: real)
    requires |runs| > 0
    ensures forall i :: 0 <= i < |runs| ==> t <= runs[i].run.time
    ensures exists i :: 0 <= i < |runs| && t == runs[i].run.time
    decreases |runs|
  {
    var last := runs[|runs| - 1].run.time;
    if |runs| == 1 then last
    else
      var rest := BestTime(runs[..|runs| - 1]);
      if rest <= last then rest else last
  }

  /** Every record of the list is a Mission 2 run. */
  predicate AllRetrieval(runs: seq<RunRecord>) {
    forall i :: 0 <= i < |runs| ==> runs[i].run.Retrieval?
  }

  /** Every record of the list is a Mission 3 run. */
  predicate AllSupply(runs: seq<RunRecord>) {
    forall i :: 0 <= i < |runs| ==> runs[i].run.SupplyRun?
  }

  /** The fewest collisions in a non-empty list of Mission 2 runs. */
  function FewestCollisions(runs: seq<RunRecord>): (c: int)
    requires |runs| > 0 && AllRetrieval(runs)
    ensures forall i :: 0 <= i < |runs| ==> c <= runs[i].run.collisions
    ensures exists i :: 0 <= i < |runs| && c == runs[i].run.collisions
    decreases |runs|
  {
    var last := runs[|runs| - 1].run.collisions;
    if |runs| == 1 then last
    else
      var rest := FewestCollisions(runs[..|runs| - 1]);
      if rest <= last then rest else last
  }

  function Attempts(r: RunRecord): int { r.run.attempts }

  /** Mean attempts per run, exactly (the display rounds it to one decimal). */
  function MeanAttempts(runs: seq<RunRecord>): (m: real)
    requires |runs| > 0
    ensures m * |runs| as real == SumBy(runs, Attempts) as real
  {
    SumBy(runs, Attempts) as real / |runs| as real
  }

  /** When every run took between `lo` and `hi` attempts, so does the mean. */
  lemma MeanAttemptsBounds(runs: seq<RunRecord>, lo: int, hi: int)
    requires |runs| > 0
    requires forall i :: 0 <= i < |runs| ==> lo <= runs[i].run.attempts <= hi
    ensures lo as real <= MeanAttempts(runs) <= hi as real
  {
    SumByBounds(runs, Attempts, lo, hi);
    var n := |runs| as real;
    var s := SumBy(runs, Attempts) as real;
    var k := |runs|;
    var total := SumBy(runs, Attempts);
    assert k * lo <= total <= k * hi;
    assert (k * lo) as real <= s <= (k * hi) as real;
    CastProduct(k, lo);
    CastProduct(k, hi);
    assert n * lo as real <= s <= n * hi as real;
    QuotientBounds(s, n, lo as real, hi as real);
    assert MeanAttempts(runs) == s / n;
  }

  lemma CastProduct(a: int, b: int)
    ensures (a * b) as real == a as real * b as real
  {
  }

  /** Dividing by a positive count preserves bounds scaled by that count. */
  lemma QuotientBounds(s: real, n: real, lo: real, hi: real)
    requires n > 0.0 && n * lo <= s <= n * hi
    ensures lo <= s / n <= hi
  {
    assert s / n - lo == (s - n * lo) / n;
    assert hi - s / n == (n * hi - s) / n;
  }

  function Bugs(r: RunRecord): int
    requires r.run.SupplyRun?
  {
    r.run.bugs
  }

  /** A Mission 2 or 3 run that reached its target outright. */
  predicate ReachedYes(r: RunRecord) {
    (r.run.Retrieval? || r.run.SupplyRun?) && r.run.reached == Yes
  }

  /** A Mission 3 run that reached the crater or came close. */
  predicate ReachedOrClose(r: RunRecord) {
    r.run.SupplyRun? && (r.run.reached == Yes || r.run.reached == Close)
  }

  /** A Mission 3 run that used both loops and conditionals. */
  predicate UsedBoth(r: RunRecord) {
    r.run.SupplyRun? && r.run.loops == Yes && r.run.conditionals == Some(Yes)
  }

  /** A Mission 1 run whose used angle is within five degrees of 60. */
  predicate NearHexagonAngle(r: RunRecord) {
    r.run.Survey? && -5.0 <= r.run.actualAngle - 60.0 <= 5.0
  }

  /** Mission 1 comparison box. */
  datatype SurveyComparison = SurveyComparison(
    firstTime: real, latestTime: real, bestTime: real, meanAttempts: real)

  /** Mission 2 comparison box. */
  datatype RetrievalComparison = RetrievalComparison(
    firstCollisions: int, latestCollisions: int, fewestCollisions: int,
    successful: nat, total: nat)

  /** Mission 3 comparison box. */
  datatype SupplyComparison = SupplyComparison(
    totalBugs: int, successful: nat, usedBoth: nat, total: nat)

  /** The Mission 1 comparison, shown only when there is more than one run. */
  function CompareSurveys(runs: seq<RunRecord>): (c: Option<SurveyComparison>)
    ensures c.Some? <==> |runs| > 1
    ensures c.Some? ==>
      && c.value.firstTime == runs[0].run.time
      && c.value.latestTime == runs[|runs| - 1].run.time
      && (forall i :: 0 <= i < |runs| ==> c.value.bestTime <= runs[i].run.time)
      && (exists i :: 0 <= i < |runs| && c.value.bestTime == runs[i].run.time)
      && c.value.meanAttempts * |runs| as real == SumBy(runs, Attempts) as real
  {
    if |runs| <= 1 then None
    else Some(SurveyComparison(runs[0].run.time, runs[|runs| - 1].run.time,
                               BestTime(runs), MeanAttempts(runs)))
  }

  /** The Mission 2 comparison, shown only when there is more than one run. */
  function CompareRetrievals(runs: seq<RunRecord>): (c: Option<RetrievalComparison>)
    requires AllRetrieval(runs)
    ensures c.Some? <==> |runs| > 1
    ensures c.Some? ==>
      && c.value.firstCollisions == runs[0].run.collisions
      && c.value.latestCollisions == runs[|runs| - 1].run.collisions
      && (forall i :: 0 <= i < |runs| ==> c.value.fewestCollisions <= runs[i].run.collisions)
      && (exists i :: 0 <= i < |runs| && c.value.fewestCollisions == runs[i].run.collisions)
      && c.value.successful == |Matching(runs, ReachedYes, |runs|)|
      && c.value.total == |runs|
  {
    if |runs| <= 1 then None
    else
      CountWhereIsMatchingPositions(runs, ReachedYes);
      Some(RetrievalComparison(runs[0].run.collisions, runs[|runs| - 1].run.collisions,
                               FewestCollisions(runs), CountWhere(runs, ReachedYes), |runs|))
  }

  /** The Mission 3 comparison, shown only when there is more than one run. */
  function CompareSupplyRuns(runs: seq<RunRecord>): (c: Option<SupplyComparison>)
    requires AllSupply(runs)
    ensures c.Some? <==> |runs| > 1
    ensures c.Some? ==>
      && c.value.successful == |Matching(runs, ReachedOrClose, |runs|)|
      && c.value.usedBoth == |Matching(runs, UsedBoth, |runs|)|
      && c.value.usedBoth <= c.value.total == |runs|
      && c.value.successful <= c.value.total
  {
    if |runs| <= 1 then None
    else
      CountWhereIsMatchingPositions(runs, ReachedOrClose);
      CountWhereIsMatchingPositions(runs, UsedBoth);
      Some(SupplyComparison(SumBy(runs, (r: RunRecord) => if r.run.SupplyRun? then r.run.bugs else 0),
                            CountWhere(runs, ReachedOrClose), CountWhere(runs, UsedBoth), |runs|))
  }

  /** Angle analysis under the Mission 1 table: runs within five degrees of 60, out of all. */
  function AngleAnalysis(runs: seq<RunRecord>): (a: Option<(nat, nat)>)
    ensures a.Some? <==> |runs| > 0
    ensures a.Some? ==> a.value.1 == |runs| && a.value.0 == |Matching(runs, NearHexagonAngle, |runs|)|
  {
    if |runs| == 0 then None
    else
      CountWhereIsMatchingPositions(runs, NearHexagonAngle);
      Some((CountWhere(runs, NearHexagonAngle), |runs|))
  }
}

=== FILE: game.dfy ===
/**
 * The web game's mission flow: unlock gating, each mission's fixed order
 * of steps, challenge grading, the submit-score-archive pipeline at the end
 * of a mission, completion side effects and the play-again reset.
 *
 * Each step waits for one user action. An action that does not fit the
 * step on screen (a stale click) changes nothing.
 */
module Game {
  import opened Wrappers
  import opened Players
  import opened RunData
  import opened History
  import opened Scoring
  import Aggregates

  /** The kinds of step a mission is made of. */
  datatype Step =
    | Narrative                                     // story text, then one Continue
    | Decision(options: nat, skillOptions: set<nat>) // pick one option; some add a star
    | Challenge(options: nat, correct: nat)          // graded question, then Continue
    | DataEntry                                     // the run-data form that ends the mission

  /** Every in-game knowledge check has four options and the second is right. */
  const Quiz: Step := Challenge(4, 1)

  /**
   * The step order of each mission. Mission 1: intro, the opening choice and
   * its follow-up, two challenges, the hand-off to the robot. Mission 2:
   * intro, route briefing, two challenges, hand-off. Mission 3: intro, the
   * debugging challenge, strategic planning, hand-off.
   */
  function MissionSteps(m: Mission): (steps: seq<Step>)
    ensures |steps| > 0 && steps[|steps| - 1] == DataEntry
    ensures forall i :: 0 <= i < |steps| - 1 ==> steps[i] != DataEntry
    ensures steps[0] == Narrative
  {
    if m == 1 then [Narrative, Decision(4, {0, 2}), Narrative, Quiz, Quiz, Narrative, DataEntry]
    else if m == 2 then [Narrative, Narrative, Quiz, Quiz, Narrative, DataEntry]
    else [Narrative, Quiz, Narrative, Narrative, DataEntry]
  }

  /** Which screen the game shows. */
  datatype Screen =
    | MissionSelect
    | Playing(mission: Mission, step: nat, answered: Option<bool>)
    | MissionComplete(mission: Mission)
    | GameComplete
    | RunHistoryView   // the run-history table, reached from Mission 1's data-entry form

  /** The last accepted submission per mission, shown on the summary screen. */
  datatype MissionData = MissionData(mission1: Option<Run>, mission2: Option<Run>, mission3: Option<Run>)

  const NoMissionData: MissionData := MissionData(None, None, None)

  /** Everything the game holds: the player, this session's last runs, the run history and its stored copy. */
  datatype Session = Session(
    player: Player,
    missionData: MissionData,
    history: History,
    stored: Stored,
    screen: Screen)

  /** A new session for `name`, with whatever history storage yields. */
  function NewSession(name: string, stored: Stored): (s: Session)
    ensures s.player == NewPlayer(name) && s.screen == MissionSelect
    ensures s.history == LoadRunHistory(stored) && s.missionData == NoMissionData
    ensures Valid(s)
  {
    Session(NewPlayer(name), NoMissionData, LoadRunHistory(stored), stored, MissionSelect)
  }

  /** Mission 2 needs one completed mission, Mission 3 two; Mission 1 is always open. */
  predicate Unlocked(m: Mission, completed: int) {
    (m == 2 ==> completed >= 1) && (m == 3 ==> completed >= 2)
  }

  /**
   * Starting a locked mission does nothing; otherwise the mission begins at
   * its first step. The player, the history and the stored copy are untouched.
   */
  function StartMission(s: Session, m: Mission): (r: Session)
    ensures !Unlocked(m, s.player.missionsCompleted) ==> r == s
    ensures Unlocked(m, s.player.missionsCompleted) ==>
      r.screen == Playing(m, 0, None) && r == s.(screen := r.screen)
    ensures Valid(s) ==> Valid(r)
  {
    if m == 2 && s.player.missionsCompleted < 1 then s
    else if m == 3 && s.player.missionsCompleted < 2 then s
    else s.(screen := Playing(m, 0, None))
  }

  /** Mission 2 opens exactly when one mission is done, Mission 3 exactly when two are. */
  lemma UnlockThresholds(s: Session)
    requires s.screen == MissionSelect
    ensures StartMission(s, 2).screen.Playing? <==> s.player.missionsCompleted >= 1
    ensures StartMission(s, 3).screen.Playing? <==> s.player.missionsCompleted >= 2
    ensures StartMission(s, 1).screen == Playing(1, 0, None)
  {
  }

  /** The player after answering a challenge, and the reported correctness. */
  datatype Graded = Graded(player: Player, correct: bool)

  /** A right answer adds one clamped star; a wrong one changes nothing. */
  function HandleChallengeAnswer(p: Player, selected: nat, correct: nat): (g: Graded)
    ensures g.correct <==> selected == correct
    ensures g.correct ==> g.player.codingSkill == Bump(p.codingSkill)
    ensures !g.correct ==> g.player == p
    ensures g.player.(codingSkill := p.codingSkill) == p
  {
    if selected == correct then Graded(WithBump(p), true) else Graded(p, false)
  }

  /** Mission 1 done: at least one mission completed, rover power set to 85. */
  function CompleteMission1WithData(p: Player): (q: Player)
    ensures q.missionsCompleted >= 1 && q.missionsCompleted >= p.missionsCompleted
    ensures p.missionsCompleted >= 1 ==> q.missionsCompleted == p.missionsCompleted
    ensures p.missionsCompleted < 1 ==> q.missionsCompleted == 1
    ensures q.roverPower == 85
    ensures q.(missionsCompleted := p.missionsCompleted, roverPower := p.roverPower) == p
  {
    p.(missionsCompleted := if p.missionsCompleted >= 1 then p.missionsCompleted else 1,
       roverPower := 85)
  }

  /** Mission 2 done: at least two missions completed, communications online. */
  function CompleteMission2WithData(p: Player): (q: Player)
    ensures q.missionsCompleted >= 2 && q.missionsCompleted >= p.missionsCompleted
    ensures p.missionsCompleted >= 2 ==> q.missionsCompleted == p.missionsCompleted
    ensures p.missionsCompleted < 2 ==> q.missionsCompleted == 2
    ensures q.commsOnline
    ensures q.(missionsCompleted := p.missionsCompleted, commsOnline := p.commsOnline) == p
  {
    p.(missionsCompleted := if p.missionsCompleted >= 2 then p.missionsCompleted else 2,
       commsOnline := true)
  }

  /** Mission 3 done: all three missions completed, whatever the count was. */
  function CompleteMission3WithData(p: Player): (q: Player)
    ensures q.missionsCompleted == 3
    ensures q.(missionsCompleted := p.missionsCompleted) == p
  {
    p.(missionsCompleted := 3)
  }

  /** What a submission returns: the session after it, and the feedback or the refusal. */
  datatype Submission = Submission(session: Session, result: Result<seq<Feedback>, ValidationError>)

  /** Archives an accepted run: appends it, writes the history out, remembers it as the mission's last run. */
  function Archive(s: Session, run: Run, writeOk: bool): (r: Session)
    ensures r.history == AddToRunHistory(s.history, run, s.player.name)
    ensures writeOk ==> LoadRunHistory(r.stored) == r.history
    ensures !writeOk ==> r.stored == s.stored
    ensures r.player == s.player && r.screen == s.screen
  {
    var h := AddToRunHistory(s.history, run, s.player.name);
    var data :=
      match run
      case Survey(_, _, _, _, _, _, _, _, _, _) => s.missionData.(mission1 := Some(run))
      case Retrieval(_, _, _, _, _, _, _, _, _) => s.missionData.(mission2 := Some(run))
      case SupplyRun(_, _, _, _, _, _, _, _, _, _) => s.missionData.(mission3 := Some(run));
    s.(history := h, stored := SaveRunHistory(s.stored, h, writeOk), missionData := data)
  }

  /**
   * Mission 1 data entry. An incomplete form is refused and nothing changes.
   * Otherwise the run is archived under the engineer's name, scored, and
   * the attempts bonus applied; the last message names the new run number.
   */
  function SubmitSurvey(s: Session, f: SurveyForm, writeOk: bool): (r: Submission)
    ensures r.result.Failure? <==> !SurveyComplete(f)
    ensures r.result.Failure? ==> r.session == s
    ensures r.result.Success? ==>
      var run := ValidateSurvey(f).value;
      var n := |s.history.mission1| + 1;
      && r.session.history == AddToRunHistory(s.history, run, s.player.name)
      && r.session.missionData == s.missionData.(mission1 := Some(run))
      && r.session.history.mission1[n - 1].runNumber == n
      && |r.result.value| > 0 && r.result.value[|r.result.value| - 1] == RunRecorded(n)
      && r.session.player.codingSkill
         == (if Trunc(f.attempts.value) == 1 then Bump(s.player.codingSkill) else s.player.codingSkill)
      && r.session.player.(codingSkill := s.player.codingSkill) == s.player
  {
    match ValidateSurvey(f)
    case Failure(e) => Submission(s, Failure(e))
    case Success(run) =>
      var s1 := Archive(s, run, writeOk);
      var score := ScoreSurvey(f, |s1.history.mission1|);
      SurveyEffortFeedback(f, |s1.history.mission1|);
      Submission(s1.(player := s1.player.(codingSkill := BumpTimes(s1.player.codingSkill, score.bonuses))),
                 Success(score.feedback))
  }

  /** Mission 2 data entry: refused when incomplete; otherwise archived, scored and both bonuses applied. */
  function SubmitRetrieval(s: Session, f: RetrievalForm, writeOk: bool): (r: Submission)
    ensures r.result.Failure? <==> !RetrievalComplete(f)
    ensures r.result.Failure? ==> r.session == s
    ensures r.result.Success? ==>
      var run := ValidateRetrieval(f).value;
      var bonuses := (if f.collisions.Some? && Trunc(f.collisions.value) == 0 then 1 else 0)
                   + (if f.conditionals == Some(Yes) then 1 else 0);
      && r.session.history == AddToRunHistory(s.history, run, s.player.name)
      && r.session.missionData == s.missionData.(mission2 := Some(run))
      && r.session.player.codingSkill == BumpTimes(s.player.codingSkill, bonuses)
      && r.session.player.(codingSkill := s.player.codingSkill) == s.player
  {
    match ValidateRetrieval(f)
    case Failure(e) => Submission(s, Failure(e))
    case Success(run) =>
      var s1 := Archive(s, run, writeOk);
      var score := ScoreRetrieval(f);
      RetrievalTierFeedback(f);
      RetrievalOutcomeFeedback(f);
      Submission(s1.(player := s1.player.(codingSkill := BumpTimes(s1.player.codingSkill, score.bonuses))),
                 Success(score.feedback))
  }

  /** Mission 3 data entry: refused when incomplete; otherwise archived, scored and both bonuses applied. */
  function SubmitSupply(s: Session, f: SupplyForm, writeOk: bool): (r: Submission)
    ensures r.result.Failure? <==> !SupplyComplete(f)
    ensures r.result.Failure? ==> r.session == s
    ensures r.result.Success? ==>
      var run := ValidateSupply(f).value;
      var bonuses := (if f.loops == Some(Yes) && f.conditionals == Some(Yes) then 1 else 0)
                   + (if f.reached.value == Yes then 1 else 0);
      && r.session.history == AddToRunHistory(s.history, run, s.player.name)
      && r.session.missionData == s.missionData.(mission3 := Some(run))
      && r.session.player.codingSkill == BumpTimes(s.player.codingSkill, bonuses)
      && r.session.player.(codingSkill := s.player.codingSkill) == s.player
  {
    match ValidateSupply(f)
    case Failure(e) => Submission(s, Failure(e))
    case Success(run) =>
      var s1 := Archive(s, run, writeOk);
      var score := ScoreSupply(f);
      SupplyTechniqueFeedback(f);
      SupplyCraterFeedback(f);
      Submission(s1.(player := s1.player.(codingSkill := BumpTimes(s1.player.codingSkill, score.bonuses))),
                 Success(score.feedback))
  }

  /**
   * Play again: a fresh player keeping the name, no last runs, back to
   * mission select. The run history survives.
   */
  function PlayAgain(s: Session): (r: Session)
    ensures r.player == NewPlayer(s.player.name)
    ensures r.missionData == NoMissionData && r.screen == MissionSelect
    ensures r.history == s.history && r.stored == s.stored
    ensures Valid(r)
  {
    Session(Player(s.player.name, 1, 100, false, 0), NoMissionData, s.history, s.stored, MissionSelect)
  }

  /** The "clear all history" button: only a confirmed clear empties and writes out the history. */
  function ClearHistory(s: Session, confirmed: bool, writeOk: bool): (r: Session)
    ensures !confirmed ==> r == s
    ensures confirmed ==> forall m: Mission :: Runs(r.history, m) == []
    ensures confirmed && writeOk ==> forall m: Mission :: Runs(LoadRunHistory(r.stored), m) == []
    ensures r.player == s.player && r.missionData == s.missionData && r.screen == s.screen
    ensures Valid(s) ==> Valid(r)
  {
    if confirmed then
      var h := ClearRunHistory(s.history, true);
      s.(history := h, stored := SaveRunHistory(s.stored, h, writeOk))
    else s
  }

  /** A user action delivered to the step on screen. */
  datatype Event =
    | Continue
    | Pick(index: nat)
    | Answer(index: nat)
    | SubmitSurveyForm(survey: SurveyForm, surveyWriteOk: bool)
    | SubmitRetrievalForm(retrieval: RetrievalForm, retrievalWriteOk: bool)
    | SubmitSupplyForm(supply: SupplyForm, supplyWriteOk: bool)
    | BackToMissions
    | ViewRunHistory
    | ClearAllHistory(confirmed: bool, clearWriteOk: bool)
    | Start(mission: Mission)
    | PlayAgainPressed

  /** What the step shows after an action. */
  datatype Shown =
    | Nothing
    | ChallengeResult(correct: bool)
    | Refused(error: ValidationError)
    | RunFeedback(feedback: seq<Feedback>)

  datatype Reply = Reply(session: Session, shown: Shown)

  /** The session is consistent: skill and progress in range, and any running step exists and is unlocked. */
  predicate Valid(s: Session) {
    && SkillInRange(s.player.codingSkill)
    && 0 <= s.player.missionsCompleted <= 3
    && (s.screen.Playing? ==>
          && s.screen.step < |MissionSteps(s.screen.mission)|
          && Unlocked(s.screen.mission, s.player.missionsCompleted)
          && (s.screen.answered.Some? ==> MissionSteps(s.screen.mission)[s.screen.step].Challenge?))
    && (s.screen.MissionComplete? ==> s.player.missionsCompleted >= s.screen.mission)
    && (s.screen.GameComplete? ==> s.player.missionsCompleted == 3)
  }

  /** The screen after a mission's data is accepted and its completion applied. */
  function Completed(m: Mission): Screen {
    if m == 3 then GameComplete else MissionComplete(m)
  }

  /** Applies mission `m`'s completion side effects. */
  function CompleteMission(p: Player, m: Mission): Player {
    if m == 1 then CompleteMission1WithData(p)
    else if m == 2 then CompleteMission2WithData(p)
    else CompleteMission3WithData(p)
  }

  /** The data-entry step: a form of the running mission is validated, archived, scored, then the mission completes. */
  function Enter(s: Session, m: Mission, e: Event): (r: Reply)
    requires e.SubmitSurveyForm? || e.SubmitRetrievalForm? || e.SubmitSupplyForm?
  {
    if e.SubmitSurveyForm? && m == 1 then Settle(s, m, SubmitSurvey(s, e.survey, e.surveyWriteOk))
    else if e.SubmitRetrievalForm? && m == 2 then Settle(s, m, SubmitRetrieval(s, e.retrieval, e.retrievalWriteOk))
    else if e.SubmitSupplyForm? && m == 3 then Settle(s, m, SubmitSupply(s, e.supply, e.supplyWriteOk))
    else Reply(s, Nothing)
  }

  /** A refused form leaves the session as it was; an accepted one completes mission `m`. */
  function Settle(s: Session, m: Mission, sub: Submission): Reply {
    match sub.result
    case Failure(err) => Reply(s, Refused(err))
    case Success(fb) =>
      Reply(sub.session.(player := CompleteMission(sub.session.player, m), screen := Completed(m)), RunFeedback(fb))
  }

  /** One user action. */
  function Signal(s: Session, e: Event): (r: Reply)
    requires Valid(s)
    ensures Valid(r.session)
    // Skill and progress fall only through "Play Again", which starts a fresh player.
    ensures !e.PlayAgainPressed? ==>
      && r.session.player.missionsCompleted >= s.player.missionsCompleted
      && r.session.player.codingSkill >= s.player.codingSkill
    ensures e.PlayAgainPressed? && s.screen == GameComplete ==>
      && r.session.player == NewPlayer(s.player.name)
      && r.session.screen == MissionSelect && r.session.history == s.history
    ensures r.session.player.name == s.player.name
    // No step is skipped: the mission either stays on its step or moves to the next one,
    // and it ends only from its data-entry step.
    ensures s.screen.Playing? && r.session.screen.Playing? ==>
      && r.session.screen.mission == s.screen.mission
      && (r.session.screen.step == s.screen.step || r.session.screen.step == s.screen.step + 1)
    // Mission 1's form can also be left for the run-history table, completing nothing.
    ensures s.screen.Playing? && !r.session.screen.Playing? ==>
      && MissionSteps(s.screen.mission)[s.screen.step] == DataEntry
      && (|| r.session.screen == Completed(s.screen.mission)
          || (&& s.screen.mission == 1 && r.session.screen == RunHistoryView
              && r.session.player == s.player && r.session.history == s.history))
    // A mission only starts from mission select, at its first step, and only once unlocked.
    ensures !s.screen.Playing? && r.session.screen.Playing? ==>
      && s.screen == MissionSelect && e.Start?
      && r.session.screen == Playing(e.mission, 0, None)
      && Unlocked(e.mission, s.player.missionsCompleted)
    // Only an accepted submission touches the history, and then only by one append,
    // apart from a confirmed clear on the run-history screen.
    ensures || r.session.history == s.history
            || r.shown.RunFeedback?
            || (&& s.screen == RunHistoryView && e.ClearAllHistory? && e.confirmed
                && forall m: Mission :: Runs(r.session.history, m) == [])
    ensures !e.ClearAllHistory? ==> Grows(s.history, r.session.history)
    ensures r.shown.RunFeedback? ==>
      exists run: Run :: r.session.history == AddToRunHistory(s.history, run, s.player.name)
  {
    match s.screen
    case Playing(_, _, _) => OnStep(s, e)
    case MissionComplete(_) =>
      if e.BackToMissions? then Reply(s.(screen := MissionSelect), Nothing) else Reply(s, Nothing)
    case MissionSelect =>
      if e.Start? then Reply(StartMission(s, e.mission), Nothing) else Reply(s, Nothing)
    case GameComplete =>
      if e.PlayAgainPressed? then Reply(PlayAgain(s), Nothing) else Reply(s, Nothing)
    case RunHistoryView =>
      if e.BackToMissions? then Reply(s.(screen := MissionSelect), Nothing)
      else if e.ClearAllHistory? then Reply(ClearHistory(s, e.confirmed, e.clearWriteOk), Nothing)
      else Reply(s, Nothing)
  }

  /** `Signal` on a mission step: the step's own action moves on, anything else is ignored. */
  function OnStep(s: Session, e: Event): (r: Reply)
    requires Valid(s) && s.screen.Playing?
    ensures Valid(r.session)
    ensures r.session.player.missionsCompleted >= s.player.missionsCompleted
    ensures r.session.player.codingSkill >= s.player.codingSkill
    ensures r.session.player.name == s.player.name
    ensures r.session.screen.Playing? ==>
      && r.session.screen.mission == s.screen.mission
      && (r.session.screen.step == s.screen.step || r.session.screen.step == s.screen.step + 1)
    ensures !r.session.screen.Playing? ==>
      && MissionSteps(s.screen.mission)[s.screen.step] == DataEntry
      && (|| r.session.screen == Completed(s.screen.mission)
          || (&& s.screen.mission == 1 && r.session.screen == RunHistoryView
              && r.session.player == s.player && r.session.history == s.history))
    ensures r.session.history == s.history || r.shown.RunFeedback?
    ensures Grows(s.history, r.session.history)
    ensures r.shown.RunFeedback? ==>
      exists run: Run :: r.session.history == AddToRunHistory(s.history, run, s.player.name)
  {
    var m, i, answered := s.screen.mission, s.screen.step, s.screen.answered;
    var steps := MissionSteps(m);
    var next := s.(screen := Playing(m, i + 1, None));
    match steps[i]
       case Narrative =>
         if e.Continue? then Reply(next, Nothing) else Reply(s, Nothing)
       case Decision(n, bonus) =>
         if e.Pick? && e.index < n then
           Reply(next.(player := if e.index in bonus then WithBump(s.player) else s.player), Nothing)
         else Reply(s, Nothing)
       case Challenge(n, correct) =>
         if answered.None? && e.Answer? && e.index < n then
           var g := HandleChallengeAnswer(s.player, e.index, correct);
           Reply(s.(player := g.player, screen := Playing(m, i, Some(g.correct))), ChallengeResult(g.correct))
         else if answered.Some? && e.Continue? then Reply(next, Nothing)
         else Reply(s, Nothing)
       case DataEntry =>
         if e.SubmitSurveyForm? || e.SubmitRetrievalForm? || e.SubmitSupplyForm? then
           var r := Enter(s, m, e);
           BumpTimesStaysInRange(s.player.codingSkill, 1);
           EnterKeepsValid(s, m, e);
           r
         else if e.ViewRunHistory? && m == 1 then Reply(s.(screen := RunHistoryView), Nothing)
         else Reply(s, Nothing)
  }

  lemma EnterKeepsValid(s: Session, m: Mission, e: Event)
    requires Valid(s) && s.screen.Playing? && s.screen.mission == m
    requires MissionSteps(m)[s.screen.step] == DataEntry
    requires e.SubmitSurveyForm? || e.SubmitRetrievalForm? || e.SubmitSupplyForm?
    ensures var r := Enter(s, m, e);
      && Valid(r.session)
      && r.session.player.missionsCompleted >= s.player.missionsCompleted
      && r.session.player.codingSkill >= s.player.codingSkill
      && r.session.player.name == s.player.name
      && (r.session.screen == s.screen || r.session.screen == Completed(m))
      && (r.session.history == s.history || r.shown.RunFeedback?)
      && Grows(s.history, r.session.history)
      && (r.shown.RunFeedback? ==>
            exists run: Run :: r.session.history == AddToRunHistory(s.history, run, s.player.name))
  {
    var run: Run;
    if e.SubmitSurveyForm? && m == 1 && SurveyComplete(e.survey) {
      run := ValidateSurvey(e.survey).value;
    } else if e.SubmitRetrievalForm? && m == 2 && RetrievalComplete(e.retrieval) {
      run := ValidateRetrieval(e.retrieval).value;
    } else if e.SubmitSupplyForm? && m == 3 && SupplyComplete(e.supply) {
      run := ValidateSupply(e.supply).value;
    } else {
      assert Enter(s, m, e).session == s;
      return;
    }
    AddGrows(s.history, run, s.player.name);
    assert Enter(s, m, e).session.history == AddToRunHistory(s.history, run, s.player.name);
    forall k: nat ensures SkillInRange(BumpTimes(s.player.codingSkill, k))
                          && s.player.codingSkill <= BumpTimes(s.player.codingSkill, k) {
      BumpTimesStaysInRange(s.player.codingSkill, k);
    }
  }

  /** Every mission list of `h'` extends the matching list of `h`: runs are never removed or rewritten. */
  predicate Grows(h: History, h': History) {
    forall m: Mission :: |Runs(h, m)| <= |Runs(h', m)| && Runs(h', m)[..|Runs(h, m)|] == Runs(h, m)
  }

  lemma AddGrows(h: History, run: Run, engineer: string)
    ensures Grows(h, AddToRunHistory(h, run, engineer))
  {
    var h' := AddToRunHistory(h, run, engineer);
    forall m: Mission ensures |Runs(h, m)| <= |Runs(h', m)| && Runs(h', m)[..|Runs(h, m)|] == Runs(h, m) {
      if m == MissionOf(run) {
        assert Runs(h', m)[..|Runs(h, m)|] == Runs(h', m)[..|Runs(h', m)| - 1];
      }
    }
  }

  lemma GrowsTransitive(a: History, b: History, c: History)
    requires Grows(a, b) && Grows(b, c)
    ensures Grows(a, c)
  {
    forall m: Mission ensures |Runs(a, m)| <= |Runs(c, m)| && Runs(c, m)[..|Runs(a, m)|] == Runs(a, m) {
      assert Runs(c, m)[..|Runs(a, m)|] == Runs(c, m)[..|Runs(b, m)|][..|Runs(a, m)|];
    }
  }

  predicate IsClear(e: Event) { e.ClearAllHistory? }
  predicate IsPlayAgain(e: Event) { e.PlayAgainPressed? }
  predicate IsStart(e: Event) { e.Start? }

  /** No action in `events` is of the kind `kind` picks out. */
  predicate Avoids(events: seq<Event>, kind: Event -> bool) {
    forall k :: 0 <= k < |events| ==> !kind(events[k])
  }

  lemma AvoidsTail(events: seq<Event>, kind: Event -> bool)
    requires |events| > 0
    ensures Avoids(events, kind) ==> !kind(events[0]) && Avoids(events[1..], kind)
  {
    if Avoids(events, kind) {
      forall k | 0 <= k < |events[1..]| ensures !kind(events[1..][k]) {
        assert events[1..][k] == events[k + 1];
      }
    }
  }

  /** The session after a sequence of user actions. */
  function Play(s: Session, events: seq<Event>): (r: Session)
    requires Valid(s)
    ensures Valid(r)
    ensures r.player.name == s.player.name
    ensures Avoids(events, IsPlayAgain) ==>
      r.player.missionsCompleted >= s.player.missionsCompleted && r.player.codingSkill >= s.player.codingSkill
    ensures Avoids(events, IsClear) ==> Grows(s.history, r.history)
    ensures Avoids(events, IsStart) && !s.screen.Playing? ==> !r.screen.Playing?
    decreases |events|
  {
    if |events| == 0 then
      assert Grows(s.history, s.history) by {
        forall m: Mission ensures Runs(s.history, m)[..|Runs(s.history, m)|] == Runs(s.history, m) { }
      }
      s
    else
      var s1 := Signal(s, events[0]).session;
      var r := Play(s1, events[1..]);
      AvoidsTail(events, IsPlayAgain);
      AvoidsTail(events, IsStart);
      AvoidsTail(events, IsClear);
      if Avoids(events, IsClear) then
        GrowsTransitive(s.history, s1.history, r.history);
        r
      else r
  }

  /** Once a challenge is answered, further answers are ignored until Continue. */
  lemma AnswerLocked(s: Session, k: nat)
    requires Valid(s) && s.screen.Playing? && s.screen.answered.Some?
    ensures Signal(s, Answer(k)) == Reply(s, Nothing)
  {
  }

  /**
   * From Mission 1's form, viewing the run history and going back returns to
   * mission select with nothing recorded and nothing completed.
   */
  lemma HistoryDetour(s: Session)
    requires Valid(s) && s.screen == Playing(1, 6, None)
    ensures var r := Play(s, [ViewRunHistory, BackToMissions]);
      && r.screen == MissionSelect
      && r.player == s.player && r.history == s.history && r.missionData == s.missionData
  {
    var s1 := Signal(s, ViewRunHistory).session;
    assert s1 == s.(screen := RunHistoryView);
    assert Play(s, [ViewRunHistory, BackToMissions]) == Play(s1, [BackToMissions]);
  }

  /** An action that the step on screen does not expect changes nothing. */
  lemma StaleSignalIgnored(s: Session, e: Event)
    requires Valid(s) && s.screen.Playing?
    requires MissionSteps(s.screen.mission)[s.screen.step] == Narrative && !e.Continue?
    ensures Signal(s, e) == Reply(s, Nothing)
  {
  }

  // Worked scenarios.

  /** A clean first-try hexagon run: planned angle left empty, 62 degrees used, six sides, back at start. */
  const FirstTryHexagon: SurveyForm :=
    SurveyForm(Some(45.0), None, Some(62.0), "", Some(6.0), Some(30.0), Some(Yes), Some(1.0), "")

  /**
   * The clean first-try run is accepted with the excellent-angle, perfect-sides,
   * returned and first-try messages, and earns exactly one star: only the
   * first-try message carries a bonus in Mission 1.
   */
  lemma ScenarioFirstTryHexagon(s: Session, writeOk: bool)
    requires Valid(s) && s.player.codingSkill < MaxSkill
    ensures var r := SubmitSurvey(s, FirstTryHexagon, writeOk);
      && r.result.Success?
      && AngleExcellent in r.result.value && SidesPerfect in r.result.value
      && ReturnedPerfect in r.result.value && FirstTry in r.result.value
      && r.session.player.codingSkill == s.player.codingSkill + 1
      && |r.session.history.mission1| == |s.history.mission1| + 1
  {
    var f := FirstTryHexagon;
    assert SurveyComplete(f);
    assert Trunc(6.0) == 6 && Trunc(1.0) == 1;
    var recorded := |s.history.mission1| + 1;
    assert Abs(62.0 - HexagonAngle) == 2.0;
    SurveyAngleFeedback(f, recorded);
    SurveyCheckFeedback(f, recorded);
    SurveyEffortFeedback(f, recorded);
  }

  /** Playing two action sequences one after the other is playing their concatenation. */
  lemma {:induction false} PlayAppend(s: Session, a: seq<Event>, b: seq<Event>)
    requires Valid(s)
    ensures Play(s, a + b) == Play(Play(s, a), b)
    decreases |a|
  {
    if |a| == 0 {
      assert a + b == b;
    } else {
      assert (a + b)[0] == a[0] && (a + b)[1..] == a[1..] + b;
      PlayAppend(Signal(s, a[0]).session, a[1..], b);
    }
  }

  /** Mission 1 from its start button to the data-entry form, picking a starred option and answering both checks right. */
  const Mission1Opening: seq<Event> := [Start(1), Continue, Pick(0), Continue]
  const Mission1Checks: seq<Event> := [Answer(1), Continue, Answer(1), Continue, Continue]

  /** Playing `[e] + rest` is one action, then the rest. */
  lemma PlayCons(s: Session, e: Event, rest: seq<Event>)
    requires Valid(s)
    ensures Play(s, [e] + rest) == Play(Signal(s, e).session, rest)
  {
    assert ([e] + rest)[0] == e && ([e] + rest)[1..] == rest;
  }

  /** Continue on a narrative step moves to the next step and changes nothing else. */
  lemma ContinueNarrative(s: Session)
    requires Valid(s) && s.screen.Playing? && s.screen.answered.None?
    requires MissionSteps(s.screen.mission)[s.screen.step] == Narrative
    ensures Signal(s, Continue).session == s.(screen := s.screen.(step := s.screen.step + 1))
  {
  }

  /** The first option of Mission 1's opening choice adds a star. */
  lemma PickStarredOption(s: Session)
    requires Valid(s) && s.screen == Playing(1, 1, None)
    ensures Signal(s, Pick(0)).session == s.(player := WithBump(s.player), screen := Playing(1, 2, None))
  {
    assert MissionSteps(1)[1] == Decision(4, {0, 2});
    assert 0 in {0, 2};
  }

  lemma Mission1OpeningStars(s: Session)
    requires Valid(s) && s.screen == MissionSelect && s.player.codingSkill == 1
    ensures Play(s, Mission1Opening)
            == s.(player := s.player.(codingSkill := 2), screen := Playing(1, 3, None))
  {
    var s1 := Signal(s, Start(1)).session;
    assert s1 == s.(screen := Playing(1, 0, None));
    ContinueNarrative(s1);
    var s2 := Signal(s1, Continue).session;
    PickStarredOption(s2);
    var s3 := Signal(s2, Pick(0)).session;
    assert s3 == s.(player := s.player.(codingSkill := 2), screen := Playing(1, 2, None));
    ContinueNarrative(s3);
    var s4 := Signal(s3, Continue).session;
    assert Mission1Opening == [Start(1)] + ([Continue] + ([Pick(0)] + ([Continue] + [])));
    PlayCons(s, Start(1), [Continue] + ([Pick(0)] + ([Continue] + [])));
    PlayCons(s1, Continue, [Pick(0)] + ([Continue] + []));
    PlayCons(s2, Pick(0), [Continue] + []);
    PlayCons(s3, Continue, []);
  }

  /** The right answer to an unanswered check adds a star and locks the check. */
  lemma AnswerRight(s: Session)
    requires Valid(s) && s.screen.Playing? && s.screen.answered.None?
    requires MissionSteps(s.screen.mission)[s.screen.step] == Quiz
    ensures Signal(s, Answer(1)).session
            == s.(player := WithBump(s.player), screen := s.screen.(answered := Some(true)))
  {
  }

  /** Continue after an answered check moves to the next step. */
  lemma ContinueAnswered(s: Session)
    requires Valid(s) && s.screen.Playing? && s.screen.answered.Some?
    ensures Signal(s, Continue).session == s.(screen := Playing(s.screen.mission, s.screen.step + 1, None))
  {
  }

  lemma Mission1ChecksStars(s: Session)
    requires Valid(s) && s.screen == Playing(1, 3, None) && s.player.codingSkill == 2
    ensures Play(s, Mission1Checks)
            == s.(player := s.player.(codingSkill := 4), screen := Playing(1, 6, None))
  {
    AnswerRight(s);
    var s1 := Signal(s, Answer(1)).session;
    assert s1 == s.(player := s.player.(codingSkill := 3), screen := Playing(1, 3, Some(true)));
    ContinueAnswered(s1);
    var s2 := Signal(s1, Continue).session;
    AnswerRight(s2);
    var s3 := Signal(s2, Answer(1)).session;
    assert s3 == s.(player := s.player.(codingSkill := 4), screen := Playing(1, 4, Some(true)));
    ContinueAnswered(s3);
    var s4 := Signal(s3, Continue).session;
    ContinueNarrative(s4);
    var s5 := Signal(s4, Continue).session;
    assert Mission1Checks == [Answer(1)] + ([Continue] + ([Answer(1)] + ([Continue] + ([Continue] + []))));
    PlayCons(s, Answer(1), [Continue] + ([Answer(1)] + ([Continue] + ([Continue] + []))));
    PlayCons(s1, Continue, [Answer(1)] + ([Continue] + ([Continue] + [])));
    PlayCons(s2, Answer(1), [Continue] + ([Continue] + []));
    PlayCons(s3, Continue, [Continue] + []);
    PlayCons(s4, Continue, []);
  }

  const Mission1SubmitThenMission2: seq<Event> :=
    [SubmitSurveyForm(FirstTryHexagon, true), BackToMissions, Start(2)]

  /** Submitting the clean first-try run from Mission 1's form completes the mission. */
  lemma SubmitCompletesMission1(s: Session)
    requires Valid(s) && s.screen == Playing(1, 6, None)
    requires s.player.codingSkill == 4 && s.player.missionsCompleted == 0
    ensures var r := Signal(s, SubmitSurveyForm(FirstTryHexagon, true)).session;
      && r.screen == MissionComplete(1)
      && r.player.missionsCompleted == 1 && r.player.codingSkill == MaxSkill && r.player.roverPower == 85
      && |r.history.mission1| == |s.history.mission1| + 1
      && r.history.mission2 == s.history.mission2
  {
    ScenarioFirstTryHexagon(s, true);
    var sub := SubmitSurvey(s, FirstTryHexagon, true);
    assert Enter(s, 1, SubmitSurveyForm(FirstTryHexagon, true)) == Settle(s, 1, sub);
  }

  lemma SubmitThenMission2(s: Session)
    requires Valid(s) && s.screen == Playing(1, 6, None)
    requires s.player.codingSkill == 4 && s.player.missionsCompleted == 0
    ensures var r := Play(s, Mission1SubmitThenMission2);
      && r.screen == Playing(2, 0, None)
      && r.player.missionsCompleted == 1 && r.player.codingSkill == MaxSkill && r.player.roverPower == 85
      && |r.history.mission1| == |s.history.mission1| + 1
      && r.history.mission2 == s.history.mission2
  {
    SubmitCompletesMission1(s);
    var s1 := Signal(s, SubmitSurveyForm(FirstTryHexagon, true)).session;
    var s2 := Signal(s1, BackToMissions).session;
    assert s2 == s1.(screen := MissionSelect);
    assert Signal(s2, Start(2)).session == s1.(screen := Playing(2, 0, None));
    assert Play(s, Mission1SubmitThenMission2) == Play(s1, [BackToMissions, Start(2)]);
  }

  /**
   * A new engineer plays all of Mission 1 and then opens Mission 2: the
   * opening choice, both checks and the first-try run each add a star, one
   * run is recorded, and Mission 2 starts at its first step.
   */
  lemma ScenarioMission1ThenMission2(name: string, stored: Stored)
    ensures var s := NewSession(name, stored);
      var r := Play(s, Mission1Opening + Mission1Checks + Mission1SubmitThenMission2);
      && r.screen == Playing(2, 0, None)
      && r.player.missionsCompleted == 1 && r.player.codingSkill == MaxSkill && r.player.roverPower == 85
      && |r.history.mission1| == |s.history.mission1| + 1
      && r.history.mission2 == s.history.mission2
  {
    var s0 := NewSession(name, stored);
    Mission1OpeningStars(s0);
    var s1 := Play(s0, Mission1Opening);
    Mission1ChecksStars(s1);
    var s2 := Play(s1, Mission1Checks);
    PlayAppend(s0, Mission1Opening, Mission1Checks);
    PlayAppend(s0, Mission1Opening + Mission1Checks, Mission1SubmitThenMission2);
    SubmitThenMission2(s2);
  }

  /** A survey without a distance is refused and the Mission 1 history keeps its length. */
  lemma ScenarioMissingDistance(s: Session, writeOk: bool)
    ensures var r := SubmitSurvey(s, FirstTryHexagon.(distance := None), writeOk);
      && r.result == Failure(MissingRequiredField)
      && |r.session.history.mission1| == |s.history.mission1|
  {
  }

  /** A Mission 2 run with the given collision count that reached the target. */
  function RetrievalWith(collisions: real): RetrievalForm {
    RetrievalForm(Some(50.0), Some(200.0), Some(2.0), Some(collisions), Some(Yes), Some(No), Some(1.0), "")
  }

  /** Two Mission 2 runs, three collisions then none: the comparison reports first 3, latest 0, fewest 0. */
  lemma ScenarioCollisionsImprove(s: Session)
    requires Valid(s) && s.history == Empty()
    ensures var s1 := SubmitRetrieval(s, RetrievalWith(3.0), true).session;
      var s2 := SubmitRetrieval(s1, RetrievalWith(0.0), true).session;
      var runs := s2.history.mission2;
      && Aggregates.AllRetrieval(runs)
      && Aggregates.CompareRetrievals(runs).Some?
      && Aggregates.CompareRetrievals(runs).value.firstCollisions == 3
      && Aggregates.CompareRetrievals(runs).value.latestCollisions == 0
      && Aggregates.CompareRetrievals(runs).value.fewestCollisions == 0
  {
    assert Trunc(3.0) == 3 && Trunc(0.0) == 0;
    var first := ValidateRetrieval(RetrievalWith(3.0)).value;
    var latest := ValidateRetrieval(RetrievalWith(0.0)).value;
    var s1 := SubmitRetrieval(s, RetrievalWith(3.0), true).session;
    assert s1.history == AddToRunHistory(Empty(), first, s.player.name);
    assert Runs(s1.history, 2) == [RunRecord(first, 1, s.player.name)];
    var s2 := SubmitRetrieval(s1, RetrievalWith(0.0), true).session;
    assert s2.history == AddToRunHistory(s1.history, latest, s1.player.name);
    var runs := s2.history.mission2;
    assert runs == Runs(s2.history, 2);
    assert |runs| == 2 && runs[0].run == first && runs[1].run == latest;
    assert runs[0].run.collisions == 3 && runs[1].run.collisions == 0;
    assert Aggregates.AllRetrieval(runs);
    var c := Aggregates.CompareRetrievals(runs).value;
    assert c.fewestCollisions <= 0;
  }

  /** Both techniques and the crater reached: two stars, mastery message before the crater message. */
  const MasteryRun: SupplyForm :=
    SupplyForm(Some(90.0), Some(250.0), Some(6.0), Some(Yes), Some(Yes), Some(Yes), Some(0.0), Some(2.0), "")

  lemma ScenarioMastery(s: Session, writeOk: bool)
    requires Valid(s) && s.player.codingSkill <= MaxSkill - 2
    ensures var r := SubmitSupply(s, MasteryRun, writeOk);
      && r.result.Success?
      && r.session.player.codingSkill == s.player.codingSkill + 2
      && |r.result.value| >= 2
      && r.result.value[0] == BothTechniques && r.result.value[1] == CraterReached
  {
    assert SupplyComplete(MasteryRun);
    SupplyTechniqueFeedback(MasteryRun);
    SupplyCraterFeedback(MasteryRun);
    BumpTimesIsClampedSum(s.player.codingSkill, 2);
  }
}

=== FILE: history.dfy ===
/**
 * The run history store: three append-only per-mission lists of submitted
 * runs, each stamped with its 1-based run number and the engineer's name,
 * plus loading from and saving to durable storage.
 */
module History {
  import opened Wrappers
  import opened RunData

  /** A run as archived: the validated data, its run number and who submitted it. */
  datatype RunRecord = RunRecord(run: Run, runNumber: int, engineerName: string)

  /** The three per-mission lists, oldest run first. */
  datatype History = History(
    mission1: seq<RunRecord>,
    mission2: seq<RunRecord>,
    mission3: seq<RunRecord>)

  /** No runs recorded for any mission. */
  function Empty(): (h: History)
    ensures forall m: Mission :: Runs(h, m) == []
  {
    History([], [], [])
  }

  /** The list kept for mission `m`. */
  function Runs(h: History, m: Mission): seq<RunRecord> {
    if m == 1 then h.mission1 else if m == 2 then h.mission2 else h.mission3
  }

  /** `h` with the list of mission `m` replaced by `runs`. */
  function WithRuns(h: History, m: Mission, runs: seq<RunRecord>): (h': History)
    ensures Runs(h', m) == runs
    ensures forall k: Mission :: k != m ==> Runs(h', k) == Runs(h, k)
  {
    if m == 1 then h.(mission1 := runs)
    else if m == 2 then h.(mission2 := runs)
    else h.(mission3 := runs)
  }

  /**
   * Appends `run` to the list of its own mission, numbered one past the
   * current length of that list and stamped with `engineer`. The other two
   * lists are untouched.
   */
  function AddToRunHistory(h: History, run: Run, engineer: string): (h': History)
    ensures var m := MissionOf(run);
      && |Runs(h', m)| == |Runs(h, m)| + 1
      && Runs(h', m)[..|Runs(h, m)|] == Runs(h, m)
      && Runs(h', m)[|Runs(h, m)|] == RunRecord(run, |Runs(h, m)| + 1, engineer)
    ensures forall k: Mission :: k != MissionOf(run) ==> Runs(h', k) == Runs(h, k)
  {
    var m := MissionOf(run);
    var runs := Runs(h, m);
    WithRuns(h, m, runs + [RunRecord(run, |runs| + 1, engineer)])
  }

  /** Clearing only happens after the user confirms; it then empties all three lists. */
  function ClearRunHistory(h: History, confirmed: bool): (h': History)
    ensures confirmed ==> forall m: Mission :: Runs(h', m) == []
    ensures !confirmed ==> h' == h
  {
    if confirmed then Empty() else h
  }

  /** What durable storage holds under the history key. */
  datatype Stored = NothingSaved | Unparseable | Saved(history: History)

  /** Loading never fails: nothing saved, or unreadable data, gives an empty history. */
  function LoadRunHistory(s: Stored): (h: History)
    ensures s.Saved? ==> h == s.history
    ensures !s.Saved? ==> forall m: Mission :: Runs(h, m) == []
  {
    match s
    case Saved(saved) => saved
    case _ => Empty()
  }

  /**
   * Saving writes the whole history; a failed write is swallowed and leaves
   * the previous contents of storage in place.
   */
  function SaveRunHistory(prior: Stored, h: History, writeOk: bool): (s: Stored)
    ensures writeOk ==> LoadRunHistory(s) == h
    ensures !writeOk ==> s == prior
  {
    if writeOk then Saved(h) else prior
  }

  /** A confirmed clear that is written out reads back as three empty lists. */
  lemma ClearSaveLoadIsEmpty(h: History, prior: Stored)
    ensures forall m: Mission ::
      Runs(LoadRunHistory(SaveRunHistory(prior, ClearRunHistory(h, true), true)), m) == []
  {
  }

  /** Run numbers of a list are exactly 1, 2, ..., N in order. */
  predicate Numbered(runs: seq<RunRecord>) {
    forall i :: 0 <= i < |runs| ==> runs[i].runNumber == i + 1
  }

  /** Every list of `h` is numbered 1..N. */
  predicate WellNumbered(h: History) {
    forall m: Mission :: Numbered(Runs(h, m))
  }

  /** Every list of `h` holds only runs of its own mission. */
  predicate WellTagged(h: History) {
    forall m: Mission, i :: 0 <= i < |Runs(h, m)| ==> MissionOf(Runs(h, m)[i].run) == m
  }

  /** Appending keeps every list numbered 1..N and every run in its own list. */
  lemma AddKeepsWellFormed(h: History, run: Run, engineer: string)
    requires WellNumbered(h) && WellTagged(h)
    ensures WellNumbered(AddToRunHistory(h, run, engineer))
    ensures WellTagged(AddToRunHistory(h, run, engineer))
  {
    var h' := AddToRunHistory(h, run, engineer);
    var m := MissionOf(run);
    forall k: Mission ensures Numbered(Runs(h', k)) {
      if k == m {
        forall i | 0 <= i < |Runs(h', k)| ensures Runs(h', k)[i].runNumber == i + 1 {
          if i < |Runs(h, k)| {
            assert Runs(h', k)[i] == Runs(h', k)[..|Runs(h, k)|][i];
          }
        }
      }
    }
    forall k: Mission, i | 0 <= i < |Runs(h', k)| ensures MissionOf(Runs(h', k)[i].run) == k {
      if k == m && i < |Runs(h, k)| {
        assert Runs(h', k)[i] == Runs(h', k)[..|Runs(h, k)|][i];
      }
    }
  }

  /** Submitting `runs` one after another, in order. */
  function AddAll(h: History, runs: seq<Run>, engineer: string): History
    decreases |runs|
  {
    if |runs| == 0 then h
    else AddAll(AddToRunHistory(h, runs[0], engineer), runs[1..], engineer)
  }

  /** `runs` stamped with consecutive run numbers from `first` on. */
  function Stamp(runs: seq<Run>, first: int, engineer: string): (rs: seq<RunRecord>)
    ensures |rs| == |runs|
    ensures forall i :: 0 <= i < |runs| ==> rs[i] == RunRecord(runs[i], first + i, engineer)
    decreases |runs|
  {
    if |runs| == 0 then []
    else [RunRecord(runs[0], first, engineer)] + Stamp(runs[1..], first + 1, engineer)
  }

  lemma SeqAssoc<T>(a: seq<T>, b: seq<T>, c: seq<T>)
    ensures (a + b) + c == a + (b + c)
  {
  }

  /** Submitting runs never touches the list of a mission none of them belongs to. */
  lemma {:induction false} AddAllLeavesOthers(h: History, m: Mission, runs: seq<Run>, engineer: string)
    requires forall i :: 0 <= i < |runs| ==> MissionOf(runs[i]) != m
    ensures Runs(AddAll(h, runs, engineer), m) == Runs(h, m)
    decreases |runs|
  {
    if |runs| > 0 {
      AddAllLeavesOthers(AddToRunHistory(h, runs[0], engineer), m, runs[1..], engineer);
    }
  }

  /**
   * Submitting runs of one mission in sequence appends them in submission
   * order, numbered on from the list's current length.
   */
  lemma {:induction false} AddAllAppendsInOrder(h: History, m: Mission, runs: seq<Run>, engineer: string)
    requires forall i :: 0 <= i < |runs| ==> MissionOf(runs[i]) == m
    ensures Runs(AddAll(h, runs, engineer), m) == Runs(h, m) + Stamp(runs, |Runs(h, m)| + 1, engineer)
    decreases |runs|
  {
    if |runs| > 0 {
      var h1 := AddToRunHistory(h, runs[0], engineer);
      var before := Runs(h, m);
      var first := RunRecord(runs[0], |before| + 1, engineer);
      AddOneAppends(h, m, runs[0], engineer);
      var after := Runs(h1, m);
      TailSameMission(m, runs);
      AddAllAppendsInOrder(h1, m, runs[1..], engineer);
      var tail := Stamp(runs[1..], |after| + 1, engineer);
      StampUnfolds(runs, |before| + 1, engineer);
      calc {
        Runs(AddAll(h, runs, engineer), m);
        Runs(AddAll(h1, runs[1..], engineer), m);
        after + tail;
        (before + [first]) + tail;
        { SeqAssoc(before, [first], tail); }
        before + ([first] + tail);
        before + Stamp(runs, |before| + 1, engineer);
      }
    }
  }

  /** One submission to mission `m` extends `m`'s list by exactly its stamped record. */
  lemma AddOneAppends(h: History, m: Mission, run: Run, engineer: string)
    requires MissionOf(run) == m
    ensures Runs(AddToRunHistory(h, run, engineer), m)
            == Runs(h, m) + [RunRecord(run, |Runs(h, m)| + 1, engineer)]
  {
    var after := Runs(AddToRunHistory(h, run, engineer), m);
    assert after == after[..|Runs(h, m)|] + [after[|Runs(h, m)|]];
  }

  lemma TailSameMission(m: Mission, runs: seq<Run>)
    requires |runs| > 0
    requires forall i :: 0 <= i < |runs| ==> MissionOf(runs[i]) == m
    ensures forall i :: 0 <= i < |runs[1..]| ==> MissionOf(runs[1..][i]) == m
  {
    forall i | 0 <= i < |runs[1..]| ensures MissionOf(runs[1..][i]) == m {
      assert runs[1..][i] == runs[i + 1];
    }
  }

  lemma StampUnfolds(runs: seq<Run>, first: int, engineer: string)
    requires |runs| > 0
    ensures Stamp(runs, first, engineer) == [RunRecord(runs[0], first, engineer)] + Stamp(runs[1..], first + 1, engineer)
  {
  }

  /**
   * From an empty history, N submissions to one mission are numbered
   * exactly 1..N, in submission order.
   */
  lemma RunNumbersFromEmpty(m: Mission, runs: seq<Run>, engineer: string)
    requires forall i :: 0 <= i < |runs| ==> MissionOf(runs[i]) == m
    ensures var rs := Runs(AddAll(Empty(), runs, engineer), m);
      && |rs| == |runs|
      && forall i :: 0 <= i < |runs| ==> rs[i].run == runs[i] && rs[i].runNumber == i + 1
  {
    AddAllAppendsInOrder(Empty(), m, runs, engineer);
    assert Runs(Empty(), m) == [];
    assert Runs(AddAll(Empty(), runs, engineer), m) == Stamp(runs, 1, engineer);
  }
}

=== FILE: players.dfy ===
/**
 * The player record shared by the web game and the text RPG, the clamped
 * skill increment both of them use, and the three-tier rank table.
 */
module Players {

  /** Highest coding skill either game ever awards. */
  const MaxSkill: int := 5

  /** The per-session engineer record. */
  datatype Player = Player(
    name: string,
    codingSkill: int,
    roverPower: int,
    commsOnline: bool,
    missionsCompleted: int)

  /** A fresh engineer called `name`: one star, full power, comms down, nothing completed. */
  function NewPlayer(name: string): (p: Player)
    ensures p.name == name && SkillInRange(p.codingSkill)
    ensures p.missionsCompleted == 0 && !p.commsOnline && p.roverPower == 100
  {
    Player(name, 1, 100, false, 0)
  }

  /** Coding skill is always between one and five stars. */
  predicate SkillInRange(s: int) {
    1 <= s <= MaxSkill
  }

  /** One star more, never above the maximum: `min(5, s + 1)`. */
  function Bump(s: int): (r: int)
    ensures r <= MaxSkill
    ensures s < MaxSkill ==> r == s + 1
    ensures s >= MaxSkill ==> r == MaxSkill
    ensures SkillInRange(s) ==> SkillInRange(r) && s <= r
  {
    if s + 1 < MaxSkill then s + 1 else MaxSkill
  }

  /** `Bump` applied `k` times in a row (several bonus events of one submission). */
  function BumpTimes(s: int, k: nat): int
    decreases k
  {
    if k == 0 then s else Bump(BumpTimes(s, k - 1))
  }

  /** Repeated clamped increments add up, but saturate at the maximum. */
  lemma {:induction false} BumpTimesIsClampedSum(s: int, k: nat)
    requires s <= MaxSkill
    ensures BumpTimes(s, k) == if s + k < MaxSkill then s + k else MaxSkill
    decreases k
  {
    if k > 0 {
      BumpTimesIsClampedSum(s, k - 1);
    }
  }

  /** Skill that starts in range stays in range under any number of bumps, and never drops. */
  lemma {:induction false} BumpTimesStaysInRange(s: int, k: nat)
    requires SkillInRange(s)
    ensures SkillInRange(BumpTimes(s, k)) && s <= BumpTimes(s, k)
    decreases k
  {
    if k > 0 {
      BumpTimesStaysInRange(s, k - 1);
    }
  }

  /** Sets the skill to one clamped increment higher; nothing else changes. */
  function WithBump(p: Player): Player {
    p.(codingSkill := Bump(p.codingSkill))
  }

  /** The end-of-game rank. */
  datatype Rank = Junior | Senior | Master

  /** Rank table: five stars is Master, three or four Senior, otherwise Junior. */
  function RankOf(skill: int): (r: Rank)
    ensures r == Master <==> skill >= MaxSkill
    ensures r == Senior <==> 3 <= skill < MaxSkill
    ensures r == Junior <==> skill < 3
  {
    if skill >= 5 then Master
    else if skill >= 3 then Senior
    else Junior
  }

  /** Numeric order of the ranks, lowest first. */
  function RankLevel(r: Rank): nat {
    match r
    case Junior => 0
    case Senior => 1
    case Master => 2
  }

  /** More skill never earns a lower rank. */
  lemma RankMonotone(a: int, b: int)
    requires a <= b
    ensures RankLevel(RankOf(a)) <= RankLevel(RankOf(b))
  {
  }
}

=== FILE: rpg.dfy ===
/**
 * The terminal edition of the game: numbered-choice input parsing, the
 * scene-by-scene player transitions of the three missions, the finales
 * and the mission-select menu.
 *
 * Every choice is the 1-based number the player typed, as the input
 * routine returns it. Narrative text, pauses and the random Mars facts
 * carry no state and are not modelled.
 */
module Rpg {
  import opened Wrappers
  import opened Players
  import opened RunData

  // ---------------------------------------------------------------------------
  // Choice input
  // ---------------------------------------------------------------------------

  /** The ASCII characters a string strip removes: tab through carriage return, the four separators, space. */
  predicate IsSpace(c: char) {
    c == ' ' || ('\t' <= c <= '\r') || ('\U{1C}' <= c <= '\U{1F}')
  }

  predicate IsDigit(c: char) { '0' <= c <= '9' }

  /** A non-empty run of decimal digits. */
  predicate IsDigits(s: string) {
    |s| > 0 && forall i :: 0 <= i < |s| ==> IsDigit(s[i])
  }

  /** `s` without its leading whitespace. */
  function TrimStart(s: string): (t: string)
    ensures |t| <= |s| && t == s[|s| - |t|..]
    ensures forall i :: 0 <= i < |s| - |t| ==> IsSpace(s[i])
    ensures |t| > 0 ==> !IsSpace(t[0])
  {
    if |s| > 0 && IsSpace(s[0]) then TrimStart(s[1..]) else s
  }

  /** `s` without its trailing whitespace. */
  function TrimEnd(s: string): (t: string)
    ensures |t| <= |s| && t == s[..|t|]
    ensures forall i :: |t| <= i < |s| ==> IsSpace(s[i])
    ensures |t| > 0 ==> !IsSpace(t[|t| - 1])
  {
    if |s| > 0 && IsSpace(s[|s| - 1]) then TrimEnd(s[..|s| - 1]) else s
  }

  /** Whitespace removed from both ends. */
  function Strip(s: string): string {
    TrimEnd(TrimStart(s))
  }

  /** The value of a digit string; leading zeros are allowed. */
  function DigitsValue(s: string): nat
    requires forall i :: 0 <= i < |s| ==> IsDigit(s[i])
  {
    if |s| == 0 then 0
    else DigitsValue(s[..|s| - 1]) * 10 + DigitValue(s[|s| - 1])
  }

  function DigitValue(c: char): (d: nat)
    requires IsDigit(c)
    ensures d < 10
  {
    c as int - '0' as int
  }

  /** The digit character for `d`. */
  function Digit(d: nat): (c: char)
    requires d < 10
    ensures IsDigit(c) && DigitValue(c) == d
  {
    ('0' as int + d) as char
  }

  /** The decimal numeral of `k`, as the game prints option numbers. */
  function Show(k: nat): (s: string)
    ensures IsDigits(s) && DigitsValue(s) == k
    ensures !IsSpace(s[0]) && !IsSpace(s[|s| - 1])
  {
    if k < 10 then [Digit(k)]
    else
      var prefix := Show(k / 10);
      var s := prefix + [Digit(k % 10)];
      assert s[..|s| - 1] == prefix;
      s
  }

  /**
   * One typed line, read against a menu of `count` options: accepted only
   * when, stripped, it is all digits and names an option.
   */
  function ParseChoice(line: string, count: nat): (r: Option<nat>)
    ensures r.Some? ==> 1 <= r.value <= count
    ensures r.Some? ==> IsDigits(Strip(line)) && r.value == DigitsValue(Strip(line))
    // Every numeral naming an option is accepted.
    ensures IsDigits(Strip(line)) && 1 <= DigitsValue(Strip(line)) <= count ==> r.Some?
  {
    var s := Strip(line);
    if IsDigits(s) && 1 <= DigitsValue(s) <= count then Some(DigitsValue(s)) else None
  }

  /**
   * The input loop: reads lines until one is a valid choice. `index` is the
   * accepted line, or `|lines|` when every line is rejected (the source
   * would then wait for more input forever).
   */
  method GetChoice(lines: seq<string>, count: nat) returns (choice: Option<nat>, index: nat)
    ensures index <= |lines|
    ensures choice.Some? ==> index < |lines| && ParseChoice(lines[index], count) == choice
    ensures choice.Some? ==> 1 <= choice.value <= count
    ensures choice.None? ==> index == |lines|
    ensures forall j :: 0 <= j < index ==> ParseChoice(lines[j], count).None?
  {
    index := 0;
    while index < |lines|
      invariant index <= |lines|
      invariant forall j :: 0 <= j < index ==> ParseChoice(lines[j], count).None?
    {
      var c := ParseChoice(lines[index], count);
      if c.Some? {
        return c, index;
      }
      index := index + 1;
    }
    return None, index;
  }

  /** Stripping a string that already has no whitespace at either end gives it back. */
  lemma StripClean(s: string)
    requires |s| > 0 && !IsSpace(s[0]) && !IsSpace(s[|s| - 1])
    ensures Strip(s) == s
  {
  }

  /** Stripping removes any padding made only of whitespace. */
  lemma {:induction false} StripPadded(pre: string, s: string, post: string)
    requires forall i :: 0 <= i < |pre| ==> IsSpace(pre[i])
    requires forall i :: 0 <= i < |post| ==> IsSpace(post[i])
    requires |s| > 0 && !IsSpace(s[0]) && !IsSpace(s[|s| - 1])
    ensures Strip(pre + s + post) == s
  {
    assert pre + s + post == pre + (s + post);
    TrimStartPadded(pre, s + post);
    TrimEndPadded(s, post);
  }

  lemma {:induction false} TrimStartPadded(pre: string, s: string)
    requires forall i :: 0 <= i < |pre| ==> IsSpace(pre[i])
    requires |s| > 0 && !IsSpace(s[0])
    ensures TrimStart(pre + s) == s
    decreases |pre|
  {
    if |pre| > 0 {
      assert (pre + s)[1..] == pre[1..] + s;
      TrimStartPadded(pre[1..], s);
    } else {
      assert pre + s == s;
    }
  }

  lemma {:induction false} TrimEndPadded(s: string, post: string)
    requires forall i :: 0 <= i < |post| ==> IsSpace(post[i])
    requires |s| > 0 && !IsSpace(s[|s| - 1])
    ensures TrimEnd(s + post) == s
    decreases |post|
  {
    if |post| > 0 {
      assert (s + post)[..|s + post| - 1] == s + post[..|post| - 1];
      TrimEndPadded(s, post[..|post| - 1]);
    } else {
      assert s + post == s;
    }
  }

  /** Typing an option's number, with any surrounding whitespace, selects that option. */
  lemma ShowIsAccepted(pre: string, k: nat, post: string, count: nat)
    requires 1 <= k <= count
    requires forall i :: 0 <= i < |pre| ==> IsSpace(pre[i])
    requires forall i :: 0 <= i < |post| ==> IsSpace(post[i])
    ensures ParseChoice(pre + Show(k) + post, count) == Some(k)
  {
    StripPadded(pre, Show(k), post);
  }

  /** A leading zero does not change the value read. */
  lemma {:induction false} LeadingZeroValue(s: string)
    requires forall i :: 0 <= i < |s| ==> IsDigit(s[i])
    ensures DigitsValue("0" + s) == DigitsValue(s)
  {
    if |s| > 0 {
      var z := "0" + s;
      assert z[..|z| - 1] == "0" + s[..|s| - 1];
      LeadingZeroValue(s[..|s| - 1]);
    }
  }

  /** "0k" selects option k just as "k" does. */
  lemma LeadingZeroAccepted(k: nat, count: nat)
    requires 1 <= k <= count
    ensures ParseChoice("0" + Show(k), count) == Some(k)
  {
    var s := "0" + Show(k);
    LeadingZeroValue(Show(k));
    StripClean(s);
  }

  /** A number beyond the options, zero, or an empty line is rejected. */
  lemma OutOfRangeRejected(k: nat, count: nat)
    requires k == 0 || k > count
    ensures ParseChoice(Show(k), count) == None
    ensures ParseChoice("", count) == None
  {
    StripClean(Show(k));
  }

  // ---------------------------------------------------------------------------
  // Scenes
  // ---------------------------------------------------------------------------

  /** What a scene hands back: the player after it, and the scene's success flag. */
  datatype Outcome = Outcome(player: Player, success: bool)

  /** Every knowledge check in this edition has four options and the second is right. */
  predicate Correct(choice: nat) { choice == 2 }

  /** A star, clamped at five, when `earned`. */
  function BumpIf(p: Player, earned: bool): (q: Player)
    ensures earned ==> q.codingSkill == Bump(p.codingSkill)
    ensures !earned ==> q == p
    ensures q.(codingSkill := p.codingSkill) == p
  {
    if earned then WithBump(p) else p
  }

  /** Four-option input. */
  predicate Pick4(c: nat) { 1 <= c <= 4 }

  /** Mission 1, scene 1: asking how the rover moves (1) or reviewing the requirements (3) earns a star. */
  function Mission1Scene1(p: Player, choice: nat): (q: Player)
    requires Pick4(choice)
    ensures q.codingSkill == (if choice == 1 || choice == 3 then Bump(p.codingSkill) else p.codingSkill)
    ensures q.(codingSkill := p.codingSkill) == p
  {
    BumpIf(p, choice == 1 || choice == 3)
  }

  /** Mission 1, scene 2: the sequence check; a right answer earns a star. */
  function Mission1Scene2(p: Player, choice: nat): (q: Player)
    requires Pick4(choice)
    ensures q.codingSkill == (if Correct(choice) then Bump(p.codingSkill) else p.codingSkill)
    ensures q.(codingSkill := p.codingSkill) == p
  {
    BumpIf(p, Correct(choice))
  }

  /** Mission 1, scene 3: the loops check; its answer is the mission's success. */
  function Mission1Scene3(p: Player, choice: nat): (o: Outcome)
    requires Pick4(choice)
    ensures o.success <==> Correct(choice)
    ensures o.player.codingSkill == (if Correct(choice) then Bump(p.codingSkill) else p.codingSkill)
    ensures o.player.(codingSkill := p.codingSkill) == p
  {
    Outcome(BumpIf(p, Correct(choice)), Correct(choice))
  }

  /**
   * How a finale records a completed mission. `AsWritten` adds one whatever
   * was played; `Corrected` raises the count to the mission's number, as the
   * web edition does.
   */
  datatype Counting = AsWritten | Corrected

  function Advance(done: int, mission: Mission, mode: Counting): (r: int)
    ensures mode == AsWritten ==> r == done + 1
    ensures mode == Corrected ==> r >= done && r >= mission && (r == done || r == mission)
  {
    match mode
    case AsWritten => done + 1
    case Corrected => if done >= mission then done else mission
  }

  /** Mission 1 finale: the mission is recorded; full power (85) needs success and at least two stars, otherwise 70. */
  function Mission1Finale(p: Player, success: bool, mode: Counting): (q: Player)
    ensures q.missionsCompleted == Advance(p.missionsCompleted, 1, mode)
    ensures q.roverPower == 85 <==> success && p.codingSkill >= 2
    ensures q.roverPower == 70 <==> !(success && p.codingSkill >= 2)
    ensures q.(missionsCompleted := p.missionsCompleted, roverPower := p.roverPower) == p
  {
    p.(missionsCompleted := Advance(p.missionsCompleted, 1, mode),
       roverPower := if success && p.codingSkill >= 2 then 85 else 70)
  }

  datatype M1Choices = M1Choices(opening: nat, sequence: nat, loops: nat)

  predicate M1Valid(c: M1Choices) { Pick4(c.opening) && Pick4(c.sequence) && Pick4(c.loops) }

  /** The whole of Mission 1, scene by scene. */
  function RunMission1(p: Player, c: M1Choices, mode: Counting): (q: Player)
    requires M1Valid(c)
    ensures SkillInRange(p.codingSkill) ==> SkillInRange(q.codingSkill) && p.codingSkill <= q.codingSkill
    ensures q.missionsCompleted == Advance(p.missionsCompleted, 1, mode)
    ensures q.name == p.name && q.commsOnline == p.commsOnline
  {
    var p1 := Mission1Scene1(p, c.opening);
    var p2 := Mission1Scene2(p1, c.sequence);
    var o := Mission1Scene3(p2, c.loops);
    Mission1Finale(o.player, o.success, mode)
  }

  /**
   * Full power after Mission 1 exactly when the loops check was answered
   * right: that answer itself lifts the skill to at least two stars.
   */
  lemma FullPowerIffLoopsRight(p: Player, c: M1Choices, mode: Counting)
    requires M1Valid(c) && SkillInRange(p.codingSkill)
    ensures RunMission1(p, c, mode).roverPower == 85 <==> Correct(c.loops)
    ensures RunMission1(p, c, mode).roverPower == 70 <==> !Correct(c.loops)
  {
    var p1 := Mission1Scene1(p, c.opening);
    var p2 := Mission1Scene2(p1, c.sequence);
    assert SkillInRange(p2.codingSkill);
  }

  /** Mission 2, scene 1: the zigzag route (3) costs 10 power; the route label is never read again. */
  function Mission2Scene1(p: Player, route: nat): (q: Player)
    requires Pick4(route)
    ensures q.roverPower == (if route == 3 then p.roverPower - 10 else p.roverPower)
    ensures q.(roverPower := p.roverPower) == p
  {
    if route == 3 then p.(roverPower := p.roverPower - 10) else p
  }

  /** Mission 2, scenes 2 and 3: a graded check each; a right answer earns a star. */
  function Mission2Check(p: Player, choice: nat): (o: Outcome)
    requires Pick4(choice)
    ensures o.success <==> Correct(choice)
    ensures o.player.codingSkill == (if Correct(choice) then Bump(p.codingSkill) else p.codingSkill)
    ensures o.player.(codingSkill := p.codingSkill) == p
  {
    Outcome(BumpIf(p, Correct(choice)), Correct(choice))
  }

  /** Power spent on the rock field: only navigating around (3) is free. */
  function RockCost(rock: nat): nat { if rock == 3 then 0 else 10 }

  /** Power spent on the slope: full climb 15, slow climb 8, alternate route 5, giving up 8. */
  function SlopeCost(slope: nat): nat {
    if slope == 1 then 15 else if slope == 2 then 8 else if slope == 3 then 5 else 8
  }

  /**
   * Mission 2, scene 4: two terrain decisions spend power; the slow climb
   * also earns a star. The scene succeeds when more than 20 power is left.
   */
  function Mission2Scene4(p: Player, rock: nat, slope: nat): (o: Outcome)
    requires Pick4(rock) && Pick4(slope)
    ensures o.player.roverPower == p.roverPower - RockCost(rock) - SlopeCost(slope)
    ensures p.roverPower - 25 <= o.player.roverPower <= p.roverPower - 5
    ensures o.success <==> o.player.roverPower > 20
    ensures o.player.codingSkill == (if slope == 2 then Bump(p.codingSkill) else p.codingSkill)
    ensures o.player.(roverPower := p.roverPower, codingSkill := p.codingSkill) == p
  {
    var p1 := if rock == 3 then p else p.(roverPower := p.roverPower - 10);
    var p2 :=
      if slope == 1 then p1.(roverPower := p1.roverPower - 15)
      else if slope == 2 then WithBump(p1.(roverPower := p1.roverPower - 8))
      else if slope == 3 then p1.(roverPower := p1.roverPower - 5)
      else p1.(roverPower := p1.roverPower - 8);
    Outcome(p2, p2.roverPower > 20)
  }

  /** With 46 power the terrain always succeeds; with 25 or less it never does. */
  lemma TerrainReserve(p: Player, rock: nat, slope: nat)
    requires Pick4(rock) && Pick4(slope)
    ensures p.roverPower >= 46 ==> Mission2Scene4(p, rock, slope).success
    ensures p.roverPower <= 25 ==> !Mission2Scene4(p, rock, slope).success
  {
  }

  /** Mission 2 finale: whether or not the mission succeeded, it is recorded and communications come online. */
  function Mission2Finale(p: Player, success: bool, mode: Counting): (q: Player)
    ensures q.missionsCompleted == Advance(p.missionsCompleted, 2, mode)
    ensures q.commsOnline
    ensures q.(missionsCompleted := p.missionsCompleted, commsOnline := p.commsOnline) == p
  {
    if success then
      p.(missionsCompleted := Advance(p.missionsCompleted, 2, mode), commsOnline := true)
    else
      p.(missionsCompleted := Advance(p.missionsCompleted, 2, mode), commsOnline := true)
  }

  datatype M2Choices = M2Choices(route: nat, conditionals: nat, measurement: nat, rock: nat, slope: nat)

  predicate M2Valid(c: M2Choices) {
    Pick4(c.route) && Pick4(c.conditionals) && Pick4(c.measurement) && Pick4(c.rock) && Pick4(c.slope)
  }

  /**
   * The whole of Mission 2. The reported success, handed to the finale, is
   * both checks right and the terrain crossed with power to spare.
   */
  function RunMission2(p: Player, c: M2Choices, mode: Counting): (o: Outcome)
    requires M2Valid(c)
    ensures o.success ==> Correct(c.conditionals) && Correct(c.measurement)
    ensures o.success <==> Correct(c.conditionals) && Correct(c.measurement)
                           && p.roverPower - (if c.route == 3 then 10 else 0)
                              - RockCost(c.rock) - SlopeCost(c.slope) > 20
    ensures SkillInRange(p.codingSkill) ==> SkillInRange(o.player.codingSkill) && p.codingSkill <= o.player.codingSkill
    ensures o.player.missionsCompleted == Advance(p.missionsCompleted, 2, mode)
    ensures o.player.commsOnline && o.player.name == p.name
  {
    var p1 := Mission2Scene1(p, c.route);
    var s2 := Mission2Check(p1, c.conditionals);
    var s3 := Mission2Check(s2.player, c.measurement);
    var s4 := Mission2Scene4(s3.player, c.rock, c.slope);
    var success := s2.success && s3.success && s4.success;
    Outcome(Mission2Finale(s4.player, success, mode), success)
  }

  /** Mission 3, scene 1: the debugging check; a right answer earns a star, and the scene never fails. */
  function Mission3Scene1(p: Player, choice: nat): (q: Player)
    requires Pick4(choice)
    ensures q.codingSkill == (if Correct(choice) then Bump(p.codingSkill) else p.codingSkill)
    ensures q.(codingSkill := p.codingSkill) == p
  {
    BumpIf(p, Correct(choice))
  }

  /** Mission 3, scene 2: loops with conditionals (2) earns a star; 1 and 2 succeed, 3 and 4 fail. */
  function Mission3Scene2(p: Player, choice: nat): (o: Outcome)
    requires Pick4(choice)
    ensures o.success <==> choice <= 2
    ensures o.player.codingSkill == (if choice == 2 then Bump(p.codingSkill) else p.codingSkill)
    ensures o.player.(codingSkill := p.codingSkill) == p
  {
    if choice == 2 then Outcome(WithBump(p), true)
    else if choice == 1 then Outcome(p, true)
    else Outcome(p, false)
  }

  /**
   * Mission 3, scene 3: a graded angle question, then charging: a full
   * charge (1) sets power to 100, a partial charge (3) adds 30 capped at
   * 100, pressing on (2) leaves it. The descent choice changes nothing and
   * the scene always succeeds.
   */
  function Mission3Scene3(p: Player, angle: nat, charge: nat, approach: nat): (o: Outcome)
    requires Pick4(angle) && 1 <= charge <= 3 && Pick4(approach)
    ensures o.success
    ensures charge == 1 ==> o.player.roverPower == 100
    ensures charge == 2 ==> o.player.roverPower == p.roverPower
    ensures charge == 3 ==> o.player.roverPower <= 100 && o.player.roverPower <= p.roverPower + 30
                            && (p.roverPower <= 70 ==> o.player.roverPower == p.roverPower + 30)
                            && (p.roverPower >= 70 ==> o.player.roverPower == 100)
    ensures o.player.codingSkill == (if Correct(angle) then Bump(p.codingSkill) else p.codingSkill)
    ensures o.player.(roverPower := p.roverPower, codingSkill := p.codingSkill) == p
  {
    var p1 := BumpIf(p, Correct(angle));
    var p2 :=
      if charge == 1 then p1.(roverPower := 100)
      else if charge == 3 then p1.(roverPower := if p1.roverPower + 30 < 100 then p1.roverPower + 30 else 100)
      else p1;
    Outcome(p2, true)
  }

  /** The game's last screen: the player and the rank earned. */
  datatype Ending = Ending(player: Player, rank: Rank)

  /** Mission 3 finale: the mission is recorded and the rank follows the final skill. */
  function Mission3Finale(p: Player, mode: Counting): (e: Ending)
    ensures e.player.missionsCompleted == Advance(p.missionsCompleted, 3, mode)
    ensures e.player.(missionsCompleted := p.missionsCompleted) == p
    ensures e.rank == Master <==> p.codingSkill >= MaxSkill
    ensures e.rank == Junior <==> p.codingSkill < 3
  {
    Ending(p.(missionsCompleted := Advance(p.missionsCompleted, 3, mode)), RankOf(p.codingSkill))
  }

  datatype M3Choices = M3Choices(debugging: nat, plan: nat, angle: nat, charge: nat, approach: nat)

  predicate M3Valid(c: M3Choices) {
    Pick4(c.debugging) && Pick4(c.plan) && Pick4(c.angle) && 1 <= c.charge <= 3 && Pick4(c.approach)
  }

  /** The whole of Mission 3; the scenes' success flags are not consulted. */
  function RunMission3(p: Player, c: M3Choices, mode: Counting): (e: Ending)
    requires M3Valid(c)
    ensures SkillInRange(p.codingSkill) ==> SkillInRange(e.player.codingSkill) && p.codingSkill <= e.player.codingSkill
    ensures e.player.missionsCompleted == Advance(p.missionsCompleted, 3, mode)
    ensures e.player.name == p.name && e.player.commsOnline == p.commsOnline
    ensures e.rank == RankOf(e.player.codingSkill)
  {
    var p1 := Mission3Scene1(p, c.debugging);
    var o2 := Mission3Scene2(p1, c.plan);
    var o3 := Mission3Scene3(o2.player, c.angle, c.charge, c.approach);
    Mission3Finale(o3.player, mode)
  }

  /** Answering every Mission 3 question right from two or more stars ends as a Master. */
  lemma MasterFromTwoStars(p: Player, c: M3Choices, mode: Counting)
    requires M3Valid(c) && p.codingSkill >= 2 && p.codingSkill <= MaxSkill
    requires Correct(c.debugging) && Correct(c.plan) && Correct(c.angle)
    ensures RunMission3(p, c, mode).rank == Master
  {
  }

  // ---------------------------------------------------------------------------
  // Mission select
  // ---------------------------------------------------------------------------

  datatype MenuItem = Begin(mission: Mission) | Replay(mission: Mission) | MarsFacts | ExitGame

  /** The menu offered with `done` missions completed. */
  function MenuOptions(done: int): (items: seq<MenuItem>)
    ensures |items| == (if done == 0 then 3 else if done == 1 then 4 else 5)
    ensures items[|items| - 1] == ExitGame && items[|items| - 2] == MarsFacts
    ensures 0 <= done <= 2 ==> items[0] == Begin(done + 1)
    ensures forall k: Mission :: Begin(k) in items ==> k == done + 1
  {
    if done == 0 then [Begin(1), MarsFacts, ExitGame]
    else if done == 1 then [Begin(2), Replay(1), MarsFacts, ExitGame]
    else if done == 2 then [Begin(3), Replay(1), Replay(2), MarsFacts, ExitGame]
    else [Replay(1), Replay(2), Replay(3), MarsFacts, ExitGame]
  }

  datatype Action = Play(mission: Mission) | ShowFacts | Quit

  /** What the menu does with each number, branch by branch as the dispatch is written. */
  function MenuAction(done: int, choice: nat): (a: Action)
    requires 1 <= choice <= |MenuOptions(done)|
    // The last line exits, the one before it shows a fact, and every other line plays.
    ensures a == Quit <==> choice == |MenuOptions(done)|
    ensures a == ShowFacts <==> choice == |MenuOptions(done)| - 1
    // Only a mission already done or the next one can be played.
    ensures a.Play? && done >= 0 ==> a.mission <= done + 1
    ensures a.Play? && a.mission == done + 1 ==> choice == 1
  {
    if done == 0 then
      if choice == 1 then Play(1) else if choice == 2 then ShowFacts else Quit
    else if done == 1 then
      if choice == 1 then Play(2) else if choice == 2 then Play(1)
      else if choice == 3 then ShowFacts else Quit
    else if done == 2 then
      if choice == 1 then Play(3) else if choice == 2 then Play(1)
      else if choice == 3 then Play(2) else if choice == 4 then ShowFacts else Quit
    else
      if choice == 1 then Play(1) else if choice == 2 then Play(2)
      else if choice == 3 then Play(3) else if choice == 4 then ShowFacts else Quit
  }

  /** The action a menu line announces. */
  function Announced(item: MenuItem): Action {
    match item
    case Begin(k) => Play(k)
    case Replay(k) => Play(k)
    case MarsFacts => ShowFacts
    case ExitGame => Quit
  }

  /** The dispatch does what the chosen line of the menu says. */
  lemma MenuDispatchAgrees(done: int, choice: nat)
    requires 1 <= choice <= |MenuOptions(done)|
    ensures MenuAction(done, choice) == Announced(MenuOptions(done)[choice - 1])
  {
  }

  /** One choice per mission, for whichever mission a menu choice starts. */
  datatype Playthrough = Playthrough(m1: M1Choices, m2: M2Choices, m3: M3Choices)

  predicate PlaythroughValid(t: Playthrough) { M1Valid(t.m1) && M2Valid(t.m2) && M3Valid(t.m3) }

  /** After one menu choice: the player, and whether the menu loop ends (true: game complete, false: exit). */
  datatype MenuResult = MenuResult(player: Player, ended: Option<bool>)

  /** One round of the menu loop. */
  function MenuStep(p: Player, choice: nat, t: Playthrough, mode: Counting): (r: MenuResult)
    requires 1 <= choice <= |MenuOptions(p.missionsCompleted)| && PlaythroughValid(t)
    ensures r.ended == Some(true) <==> p.missionsCompleted == 2 && choice == 1
    ensures r.ended == Some(false) <==> choice == |MenuOptions(p.missionsCompleted)|
    ensures SkillInRange(p.codingSkill) ==> SkillInRange(r.player.codingSkill)
    ensures r.player.name == p.name
  {
    var done := p.missionsCompleted;
    match MenuAction(done, choice)
    case Play(k) =>
      if k == 1 then MenuResult(RunMission1(p, t.m1, mode), None)
      else if k == 2 then MenuResult(RunMission2(p, t.m2, mode).player, None)
      else MenuResult(RunMission3(p, t.m3, mode).player, if done == 2 then Some(true) else None)
    case ShowFacts => MenuResult(p, None)
    case Quit => MenuResult(p, Some(false))
  }

  /**
   * As written, replaying Mission 1 from the one-mission menu counts as a
   * second completed mission, so the next menu offers Mission 3 although
   * Mission 2 was never played.
   */
  lemma AsWrittenReplaySkipsMission2(p: Player, t: Playthrough)
    requires p.missionsCompleted == 1 && PlaythroughValid(t)
    ensures MenuAction(1, 2) == Play(1)
    ensures MenuStep(p, 2, t, AsWritten).player.missionsCompleted == 2
    ensures MenuOptions(2)[0] == Begin(3)
  {
  }

  /** As written, a replay after the game is complete pushes the count past three. */
  lemma AsWrittenReplayPassesThree(p: Player, t: Playthrough)
    requires p.missionsCompleted == 3 && PlaythroughValid(t)
    ensures MenuStep(p, 1, t, AsWritten).player.missionsCompleted == 4
  {
  }

  /**
   * With corrected counting the count stays within 0..3, never falls, and
   * rises only by beginning the next mission, which then counts as done.
   */
  lemma CorrectedProgress(p: Player, choice: nat, t: Playthrough)
    requires 0 <= p.missionsCompleted <= 3
    requires 1 <= choice <= |MenuOptions(p.missionsCompleted)| && PlaythroughValid(t)
    ensures var q := MenuStep(p, choice, t, Corrected).player;
      && p.missionsCompleted <= q.missionsCompleted <= 3
      && (q.missionsCompleted != p.missionsCompleted ==>
            MenuOptions(p.missionsCompleted)[choice - 1] == Begin(p.missionsCompleted + 1)
            && q.missionsCompleted == p.missionsCompleted + 1)
  {
    MenuDispatchAgrees(p.missionsCompleted, choice);
  }

  /**
   * Registration: the name prompt is asked again for every blank line, and
   * the first line that is not blank once stripped names a new engineer with
   * one star, full power, communications down and nothing completed. `index`
   * is the line that was accepted; `None` means input ended first.
   */
  method CreatePlayer(lines: seq<string>) returns (p: Option<Player>, index: nat)
    ensures index <= |lines|
    ensures p.Some? ==>
      && index < |lines| && |Strip(lines[index])| > 0
      && p.value.name == Strip(lines[index])
      && p.value.codingSkill == 1 && p.value.roverPower == 100
      && !p.value.commsOnline && p.value.missionsCompleted == 0
    ensures p.None? ==> index == |lines|
    ensures forall j :: 0 <= j < index ==> |Strip(lines[j])| == 0
  {
    index := 0;
    while index < |lines|
      invariant index <= |lines|
      invariant forall j :: 0 <= j < index ==> |Strip(lines[j])| == 0
    {
      var name := Strip(lines[index]);
      if |name| > 0 {
        return Some(NewPlayer(name)), index;
      }
      index := index + 1;
    }
    return None, index;
  }
}

=== FILE: run_data.dfy ===
/**
 * The three data-entry forms of the web game, the run records they are
 * turned into, and the all-or-nothing validation between the two.
 *
 * A numeric form field is `Option<real>`: `None` is the empty string (a
 * browser number input reports anything non-numeric as empty), `Some(v)`
 * is the number typed. A drop-down is `Option<Choice>`, `None` being the
 * "-- Select --" entry. Free-text fields are plain strings.
 */
module RunData {
  import opened Wrappers

  /** The values of the yes / close / no drop-downs. */
  datatype Choice = Yes | Close | No

  /** The only distance unit the forms record. */
  const Centimetres: string := "cm"

  /** Hexagon turn angle, used as the default planned angle. */
  const DefaultTargetAngle: real := 60.0

  /** Mission 1 (hexagon survey) form, field for field. */
  datatype SurveyForm = SurveyForm(
    time: Option<real>,
    targetAngle: Option<real>,
    actualAngle: Option<real>,
    angleNotes: string,
    sides: Option<real>,
    distance: Option<real>,
    returned: Option<Choice>,
    attempts: Option<real>,
    challenges: string)

  /** Mission 2 (Pathfinder retrieval) form. */
  datatype RetrievalForm = RetrievalForm(
    time: Option<real>,
    distance: Option<real>,
    obstacles: Option<real>,
    collisions: Option<real>,
    reached: Option<Choice>,
    conditionals: Option<Choice>,
    attempts: Option<real>,
    strategy: string)

  /** Mission 3 (Schiaparelli supply run) form. */
  datatype SupplyForm = SupplyForm(
    time: Option<real>,
    distance: Option<real>,
    segments: Option<real>,
    loops: Option<Choice>,
    conditionals: Option<Choice>,
    reached: Option<Choice>,
    bugs: Option<real>,
    attempts: Option<real>,
    learned: string)

  /**
   * A validated run, tagged by mission. The tag decides which history list
   * the run is appended to. `time`, `distance` and `attempts` are common to
   * all three shapes; `conditionals` keeps the raw drop-down value, which
   * Mission 3 requires to be filled and Mission 2 does not.
   */
  datatype Run =
    | Survey(time: real, targetAngle: real, actualAngle: real, angleNotes: string,
             sides: int, distance: real, distanceUnit: string, returned: Choice,
             attempts: int, challenges: string)
    | Retrieval(time: real, distance: real, distanceUnit: string, obstacles: int,
                collisions: int, reached: Choice, conditionals: Option<Choice>,
                attempts: int, strategy: string)
    | SupplyRun(time: real, distance: real, distanceUnit: string, segments: int,
                loops: Choice, conditionals: Option<Choice>, reached: Choice, bugs: int,
                attempts: int, learned: string)

  /** The only validation error: some required field was left empty. */
  datatype ValidationError = MissingRequiredField

  /** The mission number (1, 2 or 3) a run belongs to. */
  type Mission = m: int | 1 <= m <= 3 witness 1

  function MissionOf(r: Run): (m: Mission)
    ensures r.Survey? <==> m == 1
    ensures r.Retrieval? <==> m == 2
    ensures r.SupplyRun? <==> m == 3
  {
    match r
    case Survey(_, _, _, _, _, _, _, _, _, _) => 1
    case Retrieval(_, _, _, _, _, _, _, _, _) => 2
    case SupplyRun(_, _, _, _, _, _, _, _, _, _) => 3
  }

  /** JavaScript's `parseInt` on a decimal number: drop the fraction, toward zero. */
  function Trunc(x: real): (n: int)
    ensures x >= 0.0 ==> n as real <= x < n as real + 1.0
    ensures x < 0.0 ==> n as real - 1.0 < x <= n as real
  {
    if x >= 0.0 then x.Floor else -((-x).Floor)
  }

  /** `parseInt(raw) || 0`: an empty field (NaN) and zero both give 0. */
  function IntOrZero(raw: Option<real>): (n: int)
    ensures raw.None? ==> n == 0
    ensures raw.Some? ==> n == Trunc(raw.value)
  {
    match raw
    case None => 0
    case Some(v) => Trunc(v)
  }

  /** `parseFloat(raw) || 60`: an empty field and a zero both fall back to 60. */
  function TargetAngleOrDefault(raw: Option<real>): (a: real)
    ensures a != 0.0
    ensures raw.Some? && raw.value != 0.0 ==> a == raw.value
    ensures (raw.None? || raw.value == 0.0) ==> a == DefaultTargetAngle
  {
    match raw
    case Some(v) => if v == 0.0 then DefaultTargetAngle else v
    case None => DefaultTargetAngle
  }

  /** Every required Mission 1 field is filled: time, actual angle, sides, distance, returned, attempts. */
  predicate SurveyComplete(f: SurveyForm) {
    f.time.Some? && f.actualAngle.Some? && f.sides.Some? && f.distance.Some?
    && f.returned.Some? && f.attempts.Some?
  }

  /** Every required Mission 2 field is filled: time, distance, reached, attempts. */
  predicate RetrievalComplete(f: RetrievalForm) {
    f.time.Some? && f.distance.Some? && f.reached.Some? && f.attempts.Some?
  }

  /** Every required Mission 3 field is filled: time, distance, reached, attempts, loops, conditionals. */
  predicate SupplyComplete(f: SupplyForm) {
    f.time.Some? && f.distance.Some? && f.reached.Some? && f.attempts.Some?
    && f.loops.Some? && f.conditionals.Some?
  }

  /** Turns a Mission 1 form into a run, or refuses it when a required field is empty. */
  function ValidateSurvey(f: SurveyForm): (r: Result<Run, ValidationError>)
    ensures r.Success? <==> SurveyComplete(f)
    ensures r.Success? ==>
      && r.value.Survey?
      && r.value.time == f.time.value
      && r.value.actualAngle == f.actualAngle.value
      && r.value.targetAngle == TargetAngleOrDefault(f.targetAngle)
      && r.value.sides == Trunc(f.sides.value)
      && r.value.distance == f.distance.value
      && r.value.distanceUnit == Centimetres
      && r.value.returned == f.returned.value
      && r.value.attempts == Trunc(f.attempts.value)
      && r.value.angleNotes == f.angleNotes
      && r.value.challenges == f.challenges
  {
    if f.time.None? || f.actualAngle.None? || f.sides.None? || f.distance.None?
       || f.returned.None? || f.attempts.None?
    then Failure(MissingRequiredField)
    else Success(Survey(
      f.time.value, TargetAngleOrDefault(f.targetAngle), f.actualAngle.value, f.angleNotes,
      Trunc(f.sides.value), f.distance.value, Centimetres, f.returned.value,
      Trunc(f.attempts.value), f.challenges))
  }

  /** Turns a Mission 2 form into a run; obstacles and collisions default to 0. */
  function ValidateRetrieval(f: RetrievalForm): (r: Result<Run, ValidationError>)
    ensures r.Success? <==> RetrievalComplete(f)
    ensures r.Success? ==>
      && r.value.Retrieval?
      && r.value.time == f.time.value
      && r.value.distance == f.distance.value
      && r.value.distanceUnit == Centimetres
      && r.value.obstacles == IntOrZero(f.obstacles)
      && r.value.collisions == IntOrZero(f.collisions)
      && r.value.reached == f.reached.value
      && r.value.conditionals == f.conditionals
      && r.value.attempts == Trunc(f.attempts.value)
      && r.value.strategy == f.strategy
  {
    if f.time.None? || f.distance.None? || f.reached.None? || f.attempts.None?
    then Failure(MissingRequiredField)
    else Success(Retrieval(
      f.time.value, f.distance.value, Centimetres, IntOrZero(f.obstacles),
      IntOrZero(f.collisions), f.reached.value, f.conditionals,
      Trunc(f.attempts.value), f.strategy))
  }

  /** Turns a Mission 3 form into a run; segments and bugs default to 0. */
  function ValidateSupply(f: SupplyForm): (r: Result<Run, ValidationError>)
    ensures r.Success? <==> SupplyComplete(f)
    ensures r.Success? ==>
      && r.value.SupplyRun?
      && r.value.time == f.time.value
      && r.value.distance == f.distance.value
      && r.value.distanceUnit == Centimetres
      && r.value.segments == IntOrZero(f.segments)
      && r.value.loops == f.loops.value
      && r.value.conditionals == f.conditionals
      && r.value.reached == f.reached.value
      && r.value.bugs == IntOrZero(f.bugs)
      && r.value.attempts == Trunc(f.attempts.value)
      && r.value.learned == f.learned
  {
    if f.time.None? || f.distance.None? || f.reached.None? || f.attempts.None?
       || f.loops.None? || f.conditionals.None?
    then Failure(MissingRequiredField)
    else Success(SupplyRun(
      f.time.value, f.distance.value, Centimetres, IntOrZero(f.segments),
      f.loops.value, f.conditionals, f.reached.value, IntOrZero(f.bugs),
      Trunc(f.attempts.value), f.learned))
  }

  /** The Mission 1 form a user would fill in to record run `r`. */
  function SurveyFormOf(r: Run): SurveyForm
    requires r.Survey?
  {
    SurveyForm(Some(r.time), Some(r.targetAngle), Some(r.actualAngle), r.angleNotes,
               Some(r.sides as real), Some(r.distance), Some(r.returned),
               Some(r.attempts as real), r.challenges)
  }

  /**
   * Round trip: filling the form with a stored Mission 1 run's values gives
   * back that run, provided its planned angle is not 0 (0 reads as "use 60")
   * and its unit is centimetres.
   */
  lemma SurveyRoundTrip(r: Run)
    requires r.Survey? && r.targetAngle != 0.0 && r.distanceUnit == Centimetres
    ensures ValidateSurvey(SurveyFormOf(r)) == Success(r)
  {
    assert Trunc(r.sides as real) == r.sides;
    assert Trunc(r.attempts as real) == r.attempts;
  }

  /** The Mission 2 form a user would fill in to record run `r`. */
  function RetrievalFormOf(r: Run): RetrievalForm
    requires r.Retrieval?
  {
    RetrievalForm(Some(r.time), Some(r.distance), Some(r.obstacles as real),
                  Some(r.collisions as real), Some(r.reached), r.conditionals,
                  Some(r.attempts as real), r.strategy)
  }

  /**
   * Round trip: filling the Mission 2 form with a stored run's values gives
   * back that run, provided its unit is centimetres.
   */
  lemma RetrievalRoundTrip(r: Run)
    requires r.Retrieval? && r.distanceUnit == Centimetres
    ensures ValidateRetrieval(RetrievalFormOf(r)) == Success(r)
  {
    assert Trunc(r.obstacles as real) == r.obstacles;
    assert Trunc(r.collisions as real) == r.collisions;
    assert Trunc(r.attempts as real) == r.attempts;
  }

  /** The Mission 3 form a user would fill in to record run `r`. */
  function SupplyFormOf(r: Run): SupplyForm
    requires r.SupplyRun?
  {
    SupplyForm(Some(r.time), Some(r.distance), Some(r.segments as real), Some(r.loops),
               r.conditionals, Some(r.reached), Some(r.bugs as real),
               Some(r.attempts as real), r.learned)
  }

  /**
   * Round trip: filling the Mission 3 form with a stored run's values gives
   * back that run, provided its unit is centimetres and its conditionals
   * answer is filled, as every accepted Mission 3 run's is.
   */
  lemma SupplyRoundTrip(r: Run)
    requires r.SupplyRun? && r.distanceUnit == Centimetres && r.conditionals.Some?
    ensures ValidateSupply(SupplyFormOf(r)) == Success(r)
  {
    assert Trunc(r.segments as real) == r.segments;
    assert Trunc(r.bugs as real) == r.bugs;
    assert Trunc(r.attempts as real) == r.attempts;
  }
}

=== FILE: scoring.dfy ===
/**
 * Scoring of a validated submission: the ordered feedback the engineer sees
 * and the number of one-star skill bonuses the run earns. Feedback is a
 * sequence of tags; the wording of each message is presentation.
 */
module Scoring {
  import opened Wrappers
  import opened RunData

  datatype Feedback =
    // Mission 1, in display order
    | AngleExcellent | AngleOff | AngleNoted
    | AngleAdjusted(planned: real, used: real)
    | SidesPerfect | SidesOff
    | ReturnedPerfect | ReturnedClose | ReturnedMissed
    | FirstTry | FewAttempts | ManyAttempts
    | RunRecorded(runNumber: int)
    // Mission 2, in display order
    | DistancePerfect | DistanceGood | DistanceNoted
    | ZeroCollisions | MinimalCollisions | CollisionsNoted
    | TargetReached | TargetClose | TargetMissed
    | ConditionalsUsed
    // Mission 3, in display order
    | BothTechniques | OneTechnique
    | CraterReached | CraterClose | CraterAttempted
    | BugsFixed | ComplexProgram

  /** Feedback lines and how many clamped +1 skill bonuses they carry. */
  datatype Scored = Scored(feedback: seq<Feedback>, bonuses: nat)

  /** The position group of a message within its mission's feedback list. */
  function Slot(f: Feedback): nat {
    match f
    case AngleExcellent => 0  case AngleOff => 0  case AngleNoted => 0
    case AngleAdjusted(_, _) => 1
    case SidesPerfect => 2  case SidesOff => 2
    case ReturnedPerfect => 3  case ReturnedClose => 3  case ReturnedMissed => 3
    case FirstTry => 4  case FewAttempts => 4  case ManyAttempts => 4
    case RunRecorded(_) => 5
    case DistancePerfect => 0  case DistanceGood => 0  case DistanceNoted => 0
    case ZeroCollisions => 1  case MinimalCollisions => 1  case CollisionsNoted => 1
    case TargetReached => 2  case TargetClose => 2  case TargetMissed => 2
    case ConditionalsUsed => 3
    case BothTechniques => 0  case OneTechnique => 0
    case CraterReached => 1  case CraterClose => 1  case CraterAttempted => 1
    case BugsFixed => 2
    case ComplexProgram => 3
  }

  /** Messages appear in their fixed order, at most one per group. */
  predicate InFixedOrder(fb: seq<Feedback>) {
    forall i, j :: 0 <= i < j < |fb| ==> Slot(fb[i]) < Slot(fb[j])
  }

  /** Neighbouring messages are in increasing groups. */
  predicate Ascending(fb: seq<Feedback>) {
    forall i :: 0 < i < |fb| ==> Slot(fb[i - 1]) < Slot(fb[i])
  }

  /** Increasing neighbours give a list in fixed order. */
  lemma {:induction false} AscendingInOrder(fb: seq<Feedback>)
    requires Ascending(fb)
    ensures InFixedOrder(fb)
  {
    if |fb| > 1 {
      var rest := fb[1..];
      assert Ascending(rest) by {
        forall i | 0 < i < |rest| ensures Slot(rest[i - 1]) < Slot(rest[i]) {
          assert rest[i - 1] == fb[i] && rest[i] == fb[i + 1];
        }
      }
      AscendingInOrder(rest);
      forall i, j | 0 <= i < j < |fb| ensures Slot(fb[i]) < Slot(fb[j]) {
        if i == 0 {
          assert Slot(fb[0]) < Slot(fb[1]);
          if j > 1 {
            assert fb[1] == rest[0] && fb[j] == rest[j - 1];
          }
        } else {
          assert fb[i] == rest[i - 1] && fb[j] == rest[j - 1];
        }
      }
    }
  }

  /** A list in fixed order holds at most one message of each group. */
  lemma OneMessagePerGroup(fb: seq<Feedback>, x: Feedback, y: Feedback)
    requires InFixedOrder(fb) && y in fb && Slot(x) == Slot(y)
    ensures x in fb <==> x == y
  {
    if x in fb {
      var i :| 0 <= i < |fb| && fb[i] == x;
      var j :| 0 <= j < |fb| && fb[j] == y;
      // Two different positions would put equal groups in strict order.
      assert !(i < j) && !(j < i);
    }
  }

  function Abs(x: real): real {
    if x < 0.0 then -x else x
  }

  /** Hexagon turn angle the Mission 1 score is measured against. */
  const HexagonAngle: real := 60.0

  /** Mission 2 target distance window, in centimetres. */
  predicate PerfectDistance(d: real) { 180.0 <= d <= 240.0 }
  predicate GoodDistance(d: real) { 150.0 <= d <= 300.0 }

  /** Mission 1 angle message, by deviation from the hexagon angle. */
  function AngleTier(dev: real): (f: Feedback)
    ensures Slot(f) == 0
    ensures f == AngleExcellent <==> dev <= 5.0
    ensures f == AngleOff <==> 5.0 < dev <= 15.0
    ensures f == AngleNoted <==> dev > 15.0
  {
    if dev <= 5.0 then AngleExcellent else if dev <= 15.0 then AngleOff else AngleNoted
  }

  /** Mission 1 sides message. */
  function SidesTier(sides: int): (f: Feedback)
    ensures Slot(f) == 2
    ensures f == SidesPerfect <==> sides == 6
    ensures f == SidesOff <==> sides != 6
  {
    if sides == 6 then SidesPerfect else SidesOff
  }

  /** Mission 1 return-to-start message. */
  function ReturnTier(c: Choice): (f: Feedback)
    ensures Slot(f) == 3
    ensures f == ReturnedPerfect <==> c == Yes
    ensures f == ReturnedClose <==> c == Close
    ensures f == ReturnedMissed <==> c == No
  {
    match c
    case Yes => ReturnedPerfect
    case Close => ReturnedClose
    case No => ReturnedMissed
  }

  /** Mission 1 attempts message. */
  function EffortTier(attempts: int): (f: Feedback)
    ensures Slot(f) == 4
    ensures f == FirstTry <==> attempts == 1
    ensures f == FewAttempts <==> attempts != 1 && attempts <= 3
    ensures f == ManyAttempts <==> attempts > 3
  {
    if attempts == 1 then FirstTry else if attempts <= 3 then FewAttempts else ManyAttempts
  }

  /** Mission 2 distance message. */
  function DistanceTier(d: real): (f: Feedback)
    ensures Slot(f) == 0
    ensures f == DistancePerfect <==> PerfectDistance(d)
    ensures f == DistanceGood <==> !PerfectDistance(d) && GoodDistance(d)
    ensures f == DistanceNoted <==> !GoodDistance(d)
  {
    if PerfectDistance(d) then DistancePerfect
    else if GoodDistance(d) then DistanceGood else DistanceNoted
  }

  /** Mission 2 collisions message, read from the raw field. */
  function CollisionTier(raw: Option<real>): (f: Feedback)
    ensures Slot(f) == 1
    ensures f == ZeroCollisions <==> raw.Some? && Trunc(raw.value) == 0
    ensures f == MinimalCollisions <==> raw.Some? && Trunc(raw.value) != 0 && Trunc(raw.value) <= 2
    ensures f == CollisionsNoted <==> raw.None? || Trunc(raw.value) > 2
  {
    if raw.Some? && Trunc(raw.value) == 0 then ZeroCollisions
    else if raw.Some? && Trunc(raw.value) <= 2 then MinimalCollisions
    else CollisionsNoted
  }

  /** Mission 2 arrival message. */
  function TargetTier(c: Choice): (f: Feedback)
    ensures Slot(f) == 2
    ensures f == TargetReached <==> c == Yes
    ensures f == TargetClose <==> c == Close
    ensures f == TargetMissed <==> c == No
  {
    match c
    case Yes => TargetReached
    case Close => TargetClose
    case No => TargetMissed
  }

  /** Mission 3 arrival message. */
  function CraterTier(c: Choice): (f: Feedback)
    ensures Slot(f) == 1
    ensures f == CraterReached <==> c == Yes
    ensures f == CraterClose <==> c == Close
    ensures f == CraterAttempted <==> c == No
  {
    match c
    case Yes => CraterReached
    case Close => CraterClose
    case No => CraterAttempted
  }

  /**
   * Mission 1 score. `recorded` is the length of the Mission 1 history
   * after the run was appended. The planned-vs-used line reads the raw
   * planned angle, so an empty planned angle never produces it even though
   * 60 is stored.
   */
  function ScoreSurvey(f: SurveyForm, recorded: int): (r: Scored)
    requires SurveyComplete(f)
    ensures InFixedOrder(r.feedback)
    ensures |r.feedback| > 0 && r.feedback[|r.feedback| - 1] == RunRecorded(recorded)
    // The one star on offer comes with the first-try message and only with it.
    ensures r.bonuses == if FirstTry in r.feedback then 1 else 0
  {
    var actual := f.actualAngle.value;
    var angle := AngleTier(Abs(actual - HexagonAngle));
    var sides := SidesTier(Trunc(f.sides.value));
    var returned := ReturnTier(f.returned.value);
    var effort := EffortTier(Trunc(f.attempts.value));
    var run := RunRecorded(recorded);
    var fb := if f.targetAngle.Some? && f.targetAngle.value != actual
              then [angle, AngleAdjusted(f.targetAngle.value, actual), sides, returned, effort, run]
              else [angle, sides, returned, effort, run];
    assert Ascending(fb);
    AscendingInOrder(fb);
    assert effort in fb;
    OneMessagePerGroup(fb, FirstTry, effort);
    Scored(fb, if Trunc(f.attempts.value) == 1 then 1 else 0)
  }

  /**
   * Mission 2 score. The collision messages read the raw field: an empty
   * collisions field earns neither the zero-collision bonus nor the
   * "minimal" message, although 0 is stored for it.
   */
  function ScoreRetrieval(f: RetrievalForm): (r: Scored)
    requires RetrievalComplete(f)
    ensures InFixedOrder(r.feedback)
    ensures r.bonuses
            == (if ZeroCollisions in r.feedback then 1 else 0)
             + (if ConditionalsUsed in r.feedback then 1 else 0)
  {
    var collisions := CollisionTier(f.collisions);
    var conds := f.conditionals == Some(Yes);
    var head := [DistanceTier(f.distance.value), collisions, TargetTier(f.reached.value)];
    var fb := if conds then head + [ConditionalsUsed] else head;
    assert Ascending(fb);
    AscendingInOrder(fb);
    assert collisions in fb;
    OneMessagePerGroup(fb, ZeroCollisions, collisions);
    Scored(fb, (if collisions == ZeroCollisions then 1 else 0) + (if conds then 1 else 0))
  }

  /** Mission 3 score: technique, arrival, debugging credit, program size. */
  function ScoreSupply(f: SupplyForm): (r: Scored)
    requires SupplyComplete(f)
    ensures InFixedOrder(r.feedback)
    ensures r.bonuses
            == (if BothTechniques in r.feedback then 1 else 0)
             + (if CraterReached in r.feedback then 1 else 0)
  {
    var loops := f.loops == Some(Yes);
    var conds := f.conditionals == Some(Yes);
    var technique := TechniqueTier(loops, conds);
    var k := CraterTier(f.reached.value);
    var credits := CreditTier(f);
    var fb := technique + [k] + credits;
    assert InFixedOrder(fb) by {
      ConcatInOrder(technique, [k], 1);
      ConcatInOrder(technique + [k], credits, 2);
    }
    assert fb[|technique|] == k;
    OneMessagePerGroup(fb, CraterReached, k);
    OnlyTechniqueInSlotZero(technique, k, credits, BothTechniques);
    Scored(fb, (if loops && conds then 1 else 0) + (if f.reached.value == Yes then 1 else 0))
  }

  /** Mission 3 technique message: both techniques, one of them, or none. */
  function TechniqueTier(loops: bool, conds: bool): (t: seq<Feedback>)
    ensures InFixedOrder(t) && forall i :: 0 <= i < |t| ==> Slot(t[i]) == 0
    ensures BothTechniques in t <==> loops && conds
    ensures OneTechnique in t <==> loops != conds
  {
    if loops && conds then [BothTechniques]
    else if loops || conds then [OneTechnique] else []
  }

  /** Mission 3 messages-only credits: bugs fixed, then a long program. */
  function CreditTier(f: SupplyForm): (t: seq<Feedback>)
    ensures InFixedOrder(t) && forall i :: 0 <= i < |t| ==> Slot(t[i]) >= 2
    ensures BugsFixed in t <==> f.bugs.Some? && Trunc(f.bugs.value) > 0
    ensures ComplexProgram in t <==> f.segments.Some? && Trunc(f.segments.value) >= 8
  {
    (if f.bugs.Some? && Trunc(f.bugs.value) > 0 then [BugsFixed] else [])
    + (if f.segments.Some? && Trunc(f.segments.value) >= 8 then [ComplexProgram] else [])
  }

  /** Two in-order lists, the first entirely in groups below `k` and the second at or above it, stay in order when joined. */
  lemma ConcatInOrder(a: seq<Feedback>, b: seq<Feedback>, k: nat)
    requires InFixedOrder(a) && InFixedOrder(b)
    requires forall i :: 0 <= i < |a| ==> Slot(a[i]) < k
    requires forall i :: 0 <= i < |b| ==> k <= Slot(b[i])
    ensures InFixedOrder(a + b)
  {
  }

  /** Mission 1: the angle tier follows the deviation from 60 degrees; the adjustment line needs a planned angle that differs. */
  lemma SurveyAngleFeedback(f: SurveyForm, recorded: int)
    requires SurveyComplete(f)
    ensures var fb := ScoreSurvey(f, recorded).feedback;
      var dev := Abs(f.actualAngle.value - HexagonAngle);
      && (AngleExcellent in fb <==> dev <= 5.0)
      && (AngleOff in fb <==> 5.0 < dev <= 15.0)
      && (AngleNoted in fb <==> dev > 15.0)
      && ((exists a, b :: AngleAdjusted(a, b) in fb)
          <==> f.targetAngle.Some? && f.targetAngle.value != f.actualAngle.value)
  {
    var fb := ScoreSurvey(f, recorded).feedback;
    var actual := f.actualAngle.value;
    var angle := AngleTier(Abs(actual - HexagonAngle));
    assert fb[0] == angle;
    OneMessagePerGroup(fb, AngleExcellent, angle);
    OneMessagePerGroup(fb, AngleOff, angle);
    OneMessagePerGroup(fb, AngleNoted, angle);
    if f.targetAngle.Some? && f.targetAngle.value != actual {
      assert fb[1] == AngleAdjusted(f.targetAngle.value, actual);
    } else {
      forall a, b ensures AngleAdjusted(a, b) !in fb {
        assert forall i :: 0 <= i < |fb| ==> Slot(fb[i]) != 1;
      }
    }
  }

  /** Mission 1: the sides and return-to-start messages. */
  lemma SurveyCheckFeedback(f: SurveyForm, recorded: int)
    requires SurveyComplete(f)
    ensures var fb := ScoreSurvey(f, recorded).feedback;
      && (SidesPerfect in fb <==> Trunc(f.sides.value) == 6)
      && (SidesOff in fb <==> Trunc(f.sides.value) != 6)
      && (ReturnedPerfect in fb <==> f.returned.value == Yes)
      && (ReturnedClose in fb <==> f.returned.value == Close)
      && (ReturnedMissed in fb <==> f.returned.value == No)
  {
    var fb := ScoreSurvey(f, recorded).feedback;
    var sides := SidesTier(Trunc(f.sides.value));
    var returned := ReturnTier(f.returned.value);
    assert sides in fb && returned in fb;
    OneMessagePerGroup(fb, SidesPerfect, sides);
    OneMessagePerGroup(fb, SidesOff, sides);
    OneMessagePerGroup(fb, ReturnedPerfect, returned);
    OneMessagePerGroup(fb, ReturnedClose, returned);
    OneMessagePerGroup(fb, ReturnedMissed, returned);
  }

  /** Mission 1: the attempts message; only a first-try success earns the bonus. */
  lemma SurveyEffortFeedback(f: SurveyForm, recorded: int)
    requires SurveyComplete(f)
    ensures var fb := ScoreSurvey(f, recorded).feedback;
      var attempts := Trunc(f.attempts.value);
      && (FirstTry in fb <==> attempts == 1)
      && (FewAttempts in fb <==> attempts != 1 && attempts <= 3)
      && (ManyAttempts in fb <==> attempts > 3)
  {
    var fb := ScoreSurvey(f, recorded).feedback;
    var effort := EffortTier(Trunc(f.attempts.value));
    assert effort in fb;
    OneMessagePerGroup(fb, FirstTry, effort);
    OneMessagePerGroup(fb, FewAttempts, effort);
    OneMessagePerGroup(fb, ManyAttempts, effort);
  }

  /** Mission 2: distance window and collision tiers; an empty collisions field counts as neither zero nor minimal. */
  lemma RetrievalTierFeedback(f: RetrievalForm)
    requires RetrievalComplete(f)
    ensures var fb := ScoreRetrieval(f).feedback;
      var d := f.distance.value;
      && (DistancePerfect in fb <==> PerfectDistance(d))
      && (DistanceGood in fb <==> !PerfectDistance(d) && GoodDistance(d))
      && (DistanceNoted in fb <==> !GoodDistance(d))
      && (ZeroCollisions in fb <==> f.collisions.Some? && Trunc(f.collisions.value) == 0)
      && (MinimalCollisions in fb
          <==> f.collisions.Some? && Trunc(f.collisions.value) != 0 && Trunc(f.collisions.value) <= 2)
      && (CollisionsNoted in fb <==> f.collisions.None? || Trunc(f.collisions.value) > 2)
  {
    var fb := ScoreRetrieval(f).feedback;
    var distance := DistanceTier(f.distance.value);
    assert distance in fb;
    OneMessagePerGroup(fb, DistancePerfect, distance);
    OneMessagePerGroup(fb, DistanceGood, distance);
    OneMessagePerGroup(fb, DistanceNoted, distance);
    RetrievalCollisionFeedback(f);
  }

  /** The collision tier of a Mission 2 score is the one its raw field selects. */
  lemma RetrievalCollisionFeedback(f: RetrievalForm)
    requires RetrievalComplete(f)
    ensures var fb := ScoreRetrieval(f).feedback;
      forall x :: Slot(x) == 1 ==> (x in fb <==> x == CollisionTier(f.collisions))
  {
    var fb := ScoreRetrieval(f).feedback;
    var collisions := CollisionTier(f.collisions);
    assert collisions in fb;
    forall x | Slot(x) == 1 ensures x in fb <==> x == collisions {
      OneMessagePerGroup(fb, x, collisions);
    }
  }

  /** Mission 2: arrival message and the conditionals credit. */
  lemma RetrievalOutcomeFeedback(f: RetrievalForm)
    requires RetrievalComplete(f)
    ensures var fb := ScoreRetrieval(f).feedback;
      && (TargetReached in fb <==> f.reached.value == Yes)
      && (TargetClose in fb <==> f.reached.value == Close)
      && (TargetMissed in fb <==> f.reached.value == No)
      && (ConditionalsUsed in fb <==> f.conditionals == Some(Yes))
  {
    var fb := ScoreRetrieval(f).feedback;
    var reached := TargetTier(f.reached.value);
    assert reached in fb;
    OneMessagePerGroup(fb, TargetReached, reached);
    OneMessagePerGroup(fb, TargetClose, reached);
    OneMessagePerGroup(fb, TargetMissed, reached);
  }

  /** Mission 3: technique credit needs both loops and conditionals; either alone only earns a message. */
  lemma SupplyTechniqueFeedback(f: SupplyForm)
    requires SupplyComplete(f)
    ensures var fb := ScoreSupply(f).feedback;
      && (BothTechniques in fb <==> f.loops == Some(Yes) && f.conditionals == Some(Yes))
      && (OneTechnique in fb <==> (f.loops == Some(Yes)) != (f.conditionals == Some(Yes)))
  {
    var t := TechniqueTier(f.loops == Some(Yes), f.conditionals == Some(Yes));
    var c := [CraterTier(f.reached.value)];
    var cr := CreditTier(f);
    assert ScoreSupply(f).feedback == t + c + cr;
    assert BothTechniques !in cr && OneTechnique !in cr;
  }

  /** Mission 3: the crater message follows the reached answer. */
  lemma SupplyCraterFeedback(f: SupplyForm)
    requires SupplyComplete(f)
    ensures var fb := ScoreSupply(f).feedback;
      && (CraterReached in fb <==> f.reached.value == Yes)
      && (CraterClose in fb <==> f.reached.value == Close)
      && (CraterAttempted in fb <==> f.reached.value == No)
  {
    var fb := ScoreSupply(f).feedback;
    var k := CraterTier(f.reached.value);
    assert fb == TechniqueTier(f.loops == Some(Yes), f.conditionals == Some(Yes)) + [k] + CreditTier(f);
    assert fb[|TechniqueTier(f.loops == Some(Yes), f.conditionals == Some(Yes))|] == k;
    OneMessagePerGroup(fb, CraterReached, k);
    OneMessagePerGroup(fb, CraterClose, k);
    OneMessagePerGroup(fb, CraterAttempted, k);
  }

  /** Among technique messages, one crater message and credits, a technique message can only come from the first part. */
  lemma OnlyTechniqueInSlotZero(t: seq<Feedback>, k: Feedback, cr: seq<Feedback>, x: Feedback)
    requires forall i :: 0 <= i < |cr| ==> Slot(cr[i]) >= 2
    requires Slot(k) == 1 && Slot(x) == 0
    ensures x in t + [k] + cr <==> x in t
  {
    assert x !in cr;
  }

  /** Mission 3: debugging and complexity credits are messages only. */
  lemma SupplyCreditFeedback(f: SupplyForm)
    requires SupplyComplete(f)
    ensures var fb := ScoreSupply(f).feedback;
      && (BugsFixed in fb <==> f.bugs.Some? && Trunc(f.bugs.value) > 0)
      && (ComplexProgram in fb <==> f.segments.Some? && Trunc(f.segments.value) >= 8)
  {
    var t := TechniqueTier(f.loops == Some(Yes), f.conditionals == Some(Yes));
    var c := [CraterTier(f.reached.value)];
    var cr := CreditTier(f);
    assert ScoreSupply(f).feedback == t + c + cr;
    assert BugsFixed !in t && ComplexProgram !in t;
  }

}

=== FILE: wrappers.dfy ===
/** Failure-carrying value types used across the model. */
module Wrappers {

  /** A value that may be absent: an empty form field, a missing record. */
  datatype Option<+T> = None | Some(value: T) {
    /** The wrapped value, or `default` when there is none. */
    function GetOr(default: T): (r: T)
      ensures Some? ==> r == value
      ensures None? ==> r == default
    {
      match this
      case Some(v) => v
      case None => default
    }
  }

  /** The outcome of an operation that may be refused with an error. */
  datatype Result<+R, +E> = Success(value: R) | Failure(error: E)
}
